=== FILE: README.md ===
# Leaf-folder image sequences to MP4

A Dafny model of `generate_video.py`, a batch script that walks a directory tree, and
for every leaf folder (a folder with no sub-folders) that holds images:

1. **Collates** the frames (`rename_images_in_folder`). It picks the image files by a
   case-insensitive suffix allow-list and sorts them by name. It copies the file at
   1-based position *i* into the staging folder `tmp_img_seq` as
   `image_<i, zero-padded to at least four digits><original extension>`.
2. **Encodes** them (`generate_mp4_from_images`). It lists the staging folder, keeps the
   `image_` files in name order, and sizes the video by the first frame. It tries the
   FourCC codecs `avc1`, `mp4v`, `XVID`, `MJPG` in that order until a writer opens. It
   then reads, enhances (CLAHE) and writes every frame, with a progress line after every
   tenth frame and after the last one. On success it deletes the staging folder.
3. **Drives the batch** (`main`). It walks the tree top-down, tests each folder with
   `is_leaf_folder`, and names each video `<folder name>.mp4` inside the folder.
   Nothing catches an exception, so the first job that raises ends the whole batch.

The model is purely functional:

- A directory tree is a `Tree.Entry` value.
- What OpenCV does is a `Batch.World`: decoding a file, opening a writer with a codec,
  and enhancing a frame are its function-valued fields.
- Every ending of a call is a constructor of a result datatype: `Collator.Staging`,
  `Encoder.EncodeOutcome` and `Batch.Event`.

The modules follow the script's structure:

| module | models |
|---|---|
| `Text` | Python string order, ASCII `str.lower`, `startswith`, `endswith` |
| `Sorting` | `list.sort` / `sorted` on names, and why its result is unique |
| `Decimal` | `{idx:04d}` zero padding and decimal values |
| `Collator` | `rename_images_in_folder` |
| `Codecs` | the codec priority loop |
| `Progress` | the progress cadence |
| `Encoder` | `generate_mp4_from_images` |
| `Tree` | `is_leaf_folder` and `os.walk` |
| `Batch` | `main` |

Frame order. The frame loop re-sorts the staged names as strings (line 59) and writes
the copies in that order. `Batch.FrameIndices` says which source each frame is a copy
of. Up to 9999 images that is source k for frame k, so a leaf's video frames are its
image files in name order, each enhanced (`Batch.LeafJob`, `Batch.JobFramesAreSources`,
`Batch.FrameIndicesInOrder`). This relies on the re-sort giving back the staging order,
which holds only while every index fits in four digits
(`Encoder.FrameOrderMatchesStaging`).

Above 9999 frames. With 10000 images or more, the names written at line 40 re-sort out
of order, and the video's frames are scrambled. The model follows the code here, and
the discrepancy is logged under Findings. The corrected naming, `Collator.WideStage`,
pads every index to the width of the largest one. It names the copies exactly as line
40 does whenever the folder has at most 9999 images (`Collator.WideStageAgrees`), and
with it the frames follow the image order for any count
(`Batch.CorrectedJobFramesAreSources`).

Staging cleanup. The staging folder is removed only on the success path (line 128).
When no writer opens, or a frame cannot be read, the copies stay behind. An unreadable
frame raises inside the frame loop, so the writer is never released: the frames already
written and the progress already printed are part of that outcome
(`Encoder.EncodeOutcome.FrameUnreadable`). So a failed job leaves its staging folder
behind; the model follows the code here. `shutil.rmtree` runs only on the `Encoded` outcome,
which `Batch.LeafJob` states happens exactly when every image decodes and some codec opens.

## Model

| member | source | states |
|---|---|---|
| `Tree.IsLeafFolder` | generate_video.py:7-15 | The scan answers true exactly when no entry of the folder is a folder; an empty folder is a leaf. |
| `Tree.PlainFilesDoNotMatter` | generate_video.py:12-15 | Inserting a plain file, under any name and at any position of the listing, never changes whether the folder is a leaf. |
| `Tree.Walk` | generate_video.py:144 | The walk of a folder starts with the folder itself (top-down) and only ever visits folders. |
| `Tree.WalkVisitsSubfolders` | generate_video.py:144 | Every sub-folder of a walked folder is visited, under the path extended by its own name. |
| `Tree.WalkOnce` | generate_video.py:144 | In a tree whose sibling names are distinct, as a file system keeps them, the walk visits each folder once: no two visits have the same path. |
| `Tree.WalkReaches` | generate_video.py:144 | A folder is visited exactly when it is reached from the walked folder by descending through sub-folders, under the walked path extended by the names leading to it. |
| `Tree.WalkOfLeaf` | generate_video.py:144 | The walk of a leaf visits that leaf and nothing else. |
| `Collator.MatchImages` | generate_video.py:23-24 | The selection keeps exactly the names whose lower-cased form ends in an allow-listed extension, each as many times as the listing holds it, and nothing else. |
| `Collator.MatchesEmptyIffNoImages` | generate_video.py:24-26 | The selection is empty, so the function returns `[]`, exactly when no name of the listing is an image name. |
| `Collator.Extension` | generate_video.py:39 | The extension is a suffix of the name that is empty or one dot followed by no dot; it is empty exactly when everything before the last dot is dots (`.png` has no extension). |
| `Collator.ImageExtensionKept` | generate_video.py:23-39 | For a selected image, a non-empty extension lower-cases to an entry of the allow-list, so the copy keeps the image's type, in its original case. |
| `Collator.StagedNameRoundTrip` | generate_video.py:40 | Reading a staged name back gives the index and the extension it was made from, whatever the padding width. |
| `Collator.StageWith` | generate_video.py:37-42 | Name k (0-based) reads back as index k+1 with the k-th extension; one name per file. |
| `Collator.StagedNamesDistinct` | generate_video.py:40 | No two copies get the same name, so no copy overwrites another. |
| `Collator.StagedNamesOrdered` | generate_video.py:40 | When every index fits the padding width, the staged names are strictly ascending as Python strings. |
| `Collator.StagedNameDetermined` | generate_video.py:40 | A name that reads back as an index and an extension, and is as long as the padded staged name, is that staged name. |
| `Collator.StagedLengthsFixNames` | generate_video.py:40 | The read-back and the lengths promised for line 40's names fix every name: name k is `image_`, then index k+1 padded to at least four digits, then source k's extension. |
| `Collator.Stage` | generate_video.py:37-42 | The names of line 40 read back as their 1-based position and the source's extension, and each is as long as `image_` plus the index padded to at least four digits plus the extension. Up to 9999 files they are strictly ascending. |
| `Collator.StageFirstLeast` | generate_video.py:40 | `image_0001` sorts below every other name of line 40, however many files there are. |
| `Collator.StagingOrderBreaksAbove9999` | generate_video.py:40 | With 10000 files or more, the names of line 40 are not in ascending string order. |
| `Collator.WideStage` | generate_video.py:37-42 | The corrected naming reads back like line 40's names and is strictly ascending for every file count. |
| `Collator.WideStageAgrees` | generate_video.py:40 | The corrected naming equals line 40's naming exactly when there are at most 9999 files. |
| `Collator.RenameImages` | generate_video.py:17-47 | No images gives `NoImages`. A plain file named `tmp_img_seq` makes the copy raise. Otherwise the sources are the selected images in sorted order, and copy k is named for index k+1, padded to at least four digits, with source k's extension. Up to 9999 images the copies' names are strictly ascending; with 10000 or more they are not in ascending order. |
| `Collator.FirstCopyName` | generate_video.py:37-42 | The first image in name order is copied as `image_0001` followed by its own extension. |
| `Collator.RenameIgnoresListingOrder` | generate_video.py:24-29 | The staging result does not depend on the order in which `os.listdir` returns the names. |
| `Sorting.SortNames` | generate_video.py:29 | The sort returns a permutation of its input that is ascending in Python string order. |
| `Sorting.SortedUnique` | generate_video.py:29 | Two ascending permutations of the same names are equal, so the sorted order is fully determined. |
| `Sorting.SortIgnoresListingOrder` | generate_video.py:59 | Sorting two listings with the same names gives the same list. |
| `Decimal.Pad` | generate_video.py:40 | `{idx:04d}` gives decimal digits whose value is the index, four of them or more when the index needs more. |
| `Decimal.Digits` | generate_video.py:40 | `str(n)` is a non-empty run of decimal digits with value `n` and no leading zero. |
| `Decimal.PadOneLeast` | generate_video.py:40 | The padded index 1 sorts below the padded form of any larger index, whatever its width, when the padding is at least two digits. |
| `Decimal.SameLengthSameValue` | generate_video.py:40 | Two digit strings of the same length and the same value are the same string. |
| `Decimal.PadOrder` | generate_video.py:40 | Indices whose padding has the same width compare as strings as they compare as numbers, whatever follows them. |
| `Encoder.KeepStaged` | generate_video.py:59 | The filter keeps exactly the names starting with `image_`, each as many times as listed. |
| `Encoder.KeepStagedKeepsPrefixed` | generate_video.py:59 | A listing in which every name starts with `image_` passes the filter unchanged. |
| `Encoder.StagedListingKept` | generate_video.py:59 | Any listing of a staging folder, in any order, passes the filter unchanged. |
| `Encoder.FrameOrderMatchesStaging` | generate_video.py:59 | In whatever order the folder is listed, the frame loop reads line 40's copies in staging order exactly when there are at most 9999 of them. |
| `Encoder.WideFrameOrderMatchesStaging` | generate_video.py:59 | With the corrected naming, the frame loop reads the copies in staging order for any number of frames. |
| `Encoder.WriteFrames` | generate_video.py:100-112 | The loop writes every frame exactly when every read succeeds. Otherwise it stops at the first unreadable image, having written exactly the frames before it. Frame k written is always the enhancement of image k. |
| `Encoder.WrittenReportsOnCadence` | generate_video.py:114-118 | A run, complete or stopped, reports in increasing order after exactly those frames it wrote whose index is a multiple of ten or is the last of the job. |
| `Encoder.FullRunReportsOnCadence` | generate_video.py:97-118 | A complete run of a job reports exactly at `Progress.ProgressPoints` of its frame count. |
| `Encoder.Generate` | generate_video.py:54-128 | It returns at line 56 exactly when there is no staging folder, and at line 61 exactly when that folder has no `image_` file. It raises at line 64 exactly when the first frame is unreadable. It returns with no writer exactly when the first frame reads and no codec opens, after trying all four. It raises in the frame loop exactly when the first frame reads, some codec opens and some staged frame is unreadable. It encodes exactly when every frame reads and some codec opens. The video then sits in the folder under the given name, at the given rate, with the first opening codec and the first frame's size, one enhanced frame per staged image in name order, reported on the cadence. When frame i is unreadable, the writer left open holds frames 1..i-1, the same way, and progress was printed for exactly those of them on the cadence. |
| `Encoder.GenerateFrom` | generate_video.py:58-128 | Given the frame list of line 59, it makes the same promises as `Generate` in terms of that list; an empty list is exactly the return of line 61. |
| `Encoder.Encode` | generate_video.py:67-128 | Once the first frame has been read, the call ends with no writer, an unreadable frame, or a video; each ending occurs under exactly the conditions stated for `Generate`. |
| `Codecs.Negotiate` | generate_video.py:77-91 | The codecs tried are a prefix of the priority list; a kept writer's codec is the last one tried. |
| `Codecs.FirstOpening` | generate_video.py:78-83 | Reference definition of the first candidate that opens: every earlier candidate stays closed or raises. |
| `Codecs.NegotiateStopsAtFirstOpening` | generate_video.py:78-83 | The loop tries the candidates up to and including the first that opens and keeps that one. If none opens, it tries them all and keeps none. |
| `Codecs.NegotiateWarnsOnRaise` | generate_video.py:84-85 | The "trying next" warning is printed for exactly the candidates tried whose writer raised. |
| `Codecs.NegotiateOutcome` | generate_video.py:77-91 | A writer is kept exactly when some candidate opens, and the kept codec opens. Every candidate tried before it did not open. With no writer, every candidate was tried and none opened. |
| `Codecs.OnlyThirdCandidateOpens` | generate_video.py:70-83 | If only `XVID` opens, then `avc1`, `mp4v` and `XVID` are tried, `MJPG` is not, and `XVID` is kept. |
| `Progress.ProgressPoints` | generate_video.py:115 | The report points of a `total`-frame job are exactly the frames 1..total that are multiples of ten or the last, increasing, ⌈total/10⌉ of them. |
| `Progress.ProgressSpacing` | generate_video.py:115 | A job reports at its last frame, first within ten frames, and never goes more than ten frames without a report. |
| `Batch.FrameIndices` | generate_video.py:59-100 | The frame loop writes every copy once: frame k is the copy of some source, and every source is copied into some frame. |
| `Batch.FrameIndicesStartAtOne` | generate_video.py:40-64 | Whatever the number of images, the first frame read is the copy of the first source image, because `image_0001` sorts below every other staged name. |
| `Batch.FrameIndicesInOrder` | generate_video.py:40-59 | Frame k is the copy of source k, for every k, exactly when there are at most 9999 images. |
| `Batch.LeafJob` | generate_video.py:151-161 | For one leaf folder: skipped exactly when it has no image names. Fails while staging exactly when it has images and a plain file named `tmp_img_seq`. Otherwise the video is `<folder>.mp4` in the folder at 30 fps, and it never hits the early returns of lines 56 and 61. It is encoded exactly when every image decodes and some codec opens, with one frame per image: frame k is the enhanced image that `Batch.FrameIndices` assigns to it. Up to 9999 images that is image k in name order; with 10000 or more the frames are not in image order. Whatever the count, it raises at line 64 exactly when the first image in name order does not decode. It returns with no writer exactly when that image decodes and no codec opens. It raises at all exactly when that image does not decode, or some codec opens and some image does not decode. |
| `Batch.JobFramesAreSources` | generate_video.py:153-159 | Staging a leaf's sorted images as line 40 names them and encoding them yields a video exactly when some image exists, all decode and a codec opens; frame k is then the enhanced source `Batch.FrameIndices` assigns to it. It raises at the first frame, returns with no writer, or raises at all under the conditions stated for `Batch.LeafJob`, in terms of the sources. |
| `Batch.CorrectedJobFramesAreSources` | generate_video.py:37-59 | With the corrected staging names, the video is made under the same conditions, and frame k is the enhanced source k for any number of images; it stops short under the same conditions as well. |
| `Batch.LeafVisits` | generate_video.py:150-151 | The folders the loop body acts on are all leaves, and no more than the walk visited. |
| `Batch.LeafVisitsAreTheLeaves` | generate_video.py:144-151 | A visit is acted on exactly when the walk reaches it and it is a leaf. |
| `Batch.LeafVisitsOnce` | generate_video.py:150-151 | Keeping only the leaf visits keeps the paths distinct. |
| `Batch.LeavesOnce` | generate_video.py:144-151 | In a tree with distinct sibling names, each leaf folder is acted on under its own path, never twice. |
| `Batch.LeavesOfTree` | generate_video.py:144-150 | The folders acted on are exactly the leaf folders reachable from the root, each under the root's name followed by the names leading to it. |
| `Batch.RunJobs` | generate_video.py:144-161 | The jobs that run are a prefix of the leaf jobs; all of them run unless the batch aborted, and an aborted batch ran at least one job. No job before the last one run raised, and the batch aborted exactly when the last job run raised. |
| `Batch.RunLeaves` | generate_video.py:144-161 | The folders handled are a prefix of the leaves in walk order, all of them when no job raised, and the k-th event is the job of the k-th leaf. No job before the last one handled raised, and the batch aborted exactly when the last one did. |
| `Batch.Main` | generate_video.py:140-161 | A missing root gives the error and nothing else. A plain file as root walks nothing. A folder as root handles its leaves, in walk order, up to and including the first job that raises: no earlier job raised, and the run aborted exactly when the last job handled raised. When sibling names are distinct, no two jobs are about the same folder path. |
| `Batch.TwoLeafTree` | generate_video.py:144-151 | In a tree `root/A/<files>`, `root/B/C/<files>`, the leaves handled are `A` and then `C`; `B`, which holds a folder, is never encoded. |

## Left out

- The OpenCV calls are not modelled:
  - `cv2.imread` is `World.decode`.
  - Building a `VideoWriter` and `isOpened` are `World.probe`.
  - The CLAHE enhancement of lines 105-110 is `World.enhance`.
  - A frame carries its size and a raster that the model never inspects.
- A written frame whose size differs from the first frame's is recorded like any other.
  The real writer would silently drop it.
- Filesystem failures other than the one modelled are left out: permissions, a full disk,
  or files changing during the run. The modelled one is a plain file named
  `tmp_img_seq`, which makes the first `copy2` raise. The metadata that `copy2`
  preserves is not modelled.
- Cleanup details are not modelled: `shutil.rmtree`'s `ignore_errors`, the
  `out.release()` calls, and the `VideoWriter_fourcc` call. Cleanup is read off the
  outcome: the staging folder is removed exactly when the outcome is `Encoded`.
- `os.walk` is modelled as top-down traversal of a fixed tree. Symbolic links and
  `onerror` are left out. A staging folder created during the run is never walked,
  because `os.walk` lists a folder's sub-folders before its body runs; the model reflects
  this by walking the tree as it was before the run.
- `Tree.Entry` does not force sibling names to differ, as a file system does. The promises
  that each folder is visited once (`Tree.WalkOnce`, `Batch.LeavesOnce`, `Batch.Main`)
  are stated for trees that meet `Tree.DistinctNames`.
- Reading the root path from the console, the default to the script's own directory,
  and `os.path.abspath` (lines 132-138) are left out. `Batch.Main` takes what
  `os.path.exists` and `os.walk` find at the resolved path.
- Timing, the percentage text and the elapsed-time text of the progress line are left
  out. A progress report is modelled by the 1-based index of the frame after which it
  is printed.
- The backslash-to-slash rewrite of the output path (line 67) is left out. Paths are
  sequences of folder names.
- `str.lower` is modelled for ASCII letters only. Every allow-listed extension is ASCII.
- Decoding a staged copy is modelled as decoding its source (`Batch.ReadStaged`):
  `copy2` duplicates the file's bytes, so a copy decodes as its source.
- The default arguments of `generate_mp4_from_images` (30, `output.mp4`) are left out,
  because `main` always passes both.
- `main.py`, `setup.py`, `yielding_surface.py` and
  `general_failure_criterion_for_polymers.py` are not part of this model.

## Findings

| source | as written | input that shows it | evidently intended | confidence | as-written member | corrected member |
|---|---|---|---|---|---|---|
| generate_video.py:40 | `image_{idx:04d}` pads to a minimum of four digits, and line 59 re-sorts the staged names as strings | a leaf folder with 10000 images: `image_10000.png` sorts between `image_1000.png` and `image_1001.png`, so frame 10000 is written as the 1001st frame | the video's frames follow the sorted image order for any number of images | not executed | `Collator.StagingOrderBreaksAbove9999` | `Collator.WideStage` |

=== FILE: batch.dfy ===
/**
  The batch driver, `main`: walk the tree under the root, and for every leaf folder stage
  its images and, when there are any, encode them into `<folder name>.mp4` inside that
  folder. Nothing guards a job: an exception raised while staging or encoding one leaf
  ends the whole batch.
*/
module Batch {
  import opened Wrappers
  import opened Sorting
  import opened Text
  import opened Collator
  import opened Codecs
  import opened Encoder
  import opened Tree

  /** What the model does not compute: decoding files, opening writers, enhancing frames. */
  datatype World = World(
    decode: (seq<string>, string) -> Option<Frame>,  // `cv2.imread` of a file, by folder path and name
    probe: (seq<string>, Codec) -> Probe,            // opening a writer for a folder's video with a codec
    enhance: Frame -> Frame)                          // the CLAHE enhancement of one frame

  /** The frame rate `main` passes. */
  const FrameRate: nat := 30

  /** `f"{folder_name}.mp4"`. */
  function OutputName(folderName: string): string {
    folderName + ".mp4"
  }

  /** The staging index a file name carries, or 0 when it is not a staged name. */
  function StagedIndex(name: string): nat {
    match ParseStagedName(name)
    case Some((i, _)) => i
    case None => 0
  }

  /** Name k of `names` carries staging index k + 1, so no two of them are equal. */
  predicate IndexedByPosition(names: seq<string>) {
    forall k | 0 <= k < |names| :: StagedIndex(names[k]) == k + 1
  }

  /**
    Reading a file of the staging folder: staged name `names[k]` is a copy of
    `sources[k]`, so it decodes to what that source decodes to.
  */
  function ReadStaged(w: World, path: seq<string>, sources: seq<string>, names: seq<string>): string -> Option<Frame> {
    (n: string) =>
      var i := StagedIndex(n);
      if 1 <= i <= |sources| && i <= |names| && names[i - 1] == n then w.decode(path, sources[i - 1]) else None
  }

  /** What `main` did with one leaf folder. */
  datatype Event =
    | Skipped(at: Visit)         // no images: "跳过" is printed
    | StagingFailed(at: Visit)   // `copy2` into the staging path raised
    | Generated(at: Visit, outputName: string, outcome: EncodeOutcome)

  /** The event ended in an exception, which nothing in `main` catches. */
  predicate Crashed(e: Event) {
    e.StagingFailed? || (e.Generated? && e.outcome.Raised())
  }

  /** The test of line 150 on a walked folder. */
  predicate IsLeafVisit(v: Visit) {
    v.folder.Folder? && IsLeafFolder(v.folder.entries)
  }

  /** The images of a leaf folder in name order. */
  function SortedImages(v: Visit): seq<string>
    requires v.folder.Folder?
  {
    SortNames(MatchImages(Names(v.folder.entries)))
  }

  lemma StageIndexedByPosition(sources: seq<string>)
    ensures IndexedByPosition(Stage(sources)) && |Stage(sources)| == |sources|
  {
    var names := Stage(sources);
    forall k | 0 <= k < |names|
      ensures StagedIndex(names[k]) == k + 1
    {
      assert ParseStagedName(names[k]) == Some((k + 1, Extension(sources[k])));
    }
  }

  lemma WideStageIndexedByPosition(sources: seq<string>)
    ensures IndexedByPosition(WideStage(sources)) && |WideStage(sources)| == |sources|
  {
    var names := WideStage(sources);
    forall k | 0 <= k < |names|
      ensures StagedIndex(names[k]) == k + 1
    {
      assert ParseStagedName(names[k]) == Some((k + 1, Extension(sources[k])));
    }
  }

  /** The frame loop reads each staged copy once: its frame list is a permutation of the staged names. */
  lemma FrameOrderPermutes(names: seq<string>)
    requires IndexedByPosition(names)
    ensures |FrameOrder(names)| == |names| && multiset(FrameOrder(names)) == multiset(names)
  {
    StagedListingKept(names, names);
  }

  /** The staging index of each entry of the frame list of a staging folder holding `names`. */
  function FramePositions(names: seq<string>): (ix: seq<nat>)
    requires IndexedByPosition(names)
    ensures |ix| == |names| && |FrameOrder(names)| == |names|
    ensures forall k | 0 <= k < |ix| :: 1 <= ix[k] <= |names| && FrameOrder(names)[k] == names[ix[k] - 1]
  {
    FrameOrderPermutes(names);
    var ix := seq(|names|, k requires 0 <= k < |names| => StagedIndex(FrameOrder(names)[k]));
    FramePositionsAt(names, ix);
    ix
  }

  lemma FramePositionsAt(names: seq<string>, ix: seq<nat>)
    requires IndexedByPosition(names)
    requires |FrameOrder(names)| == |names| && multiset(FrameOrder(names)) == multiset(names)
    requires |ix| == |names| && forall k | 0 <= k < |ix| :: ix[k] == StagedIndex(FrameOrder(names)[k])
    ensures forall k | 0 <= k < |ix| :: 1 <= ix[k] <= |names| && FrameOrder(names)[k] == names[ix[k] - 1]
  {
    var order := FrameOrder(names);
    forall k | 0 <= k < |ix|
      ensures 1 <= ix[k] <= |names| && order[k] == names[ix[k] - 1]
    {
      assert order[k] in multiset(names);
      StagedIndexOfMember(names, order[k]);
    }
  }

  lemma StagedIndexOfMember(names: seq<string>, x: string)
    requires IndexedByPosition(names) && x in multiset(names)
    ensures 1 <= StagedIndex(x) <= |names| && names[StagedIndex(x) - 1] == x
  {
    var j :| 0 <= j < |names| && names[j] == x;
  }

  /** Every staged copy is some entry of the frame list. */
  lemma FramePositionsCover(names: seq<string>)
    requires IndexedByPosition(names)
    ensures forall j | 1 <= j <= |names| :: j in FramePositions(names)
  {
    var ix := FramePositions(names);
    var order := FrameOrder(names);
    FrameOrderPermutes(names);
    forall j | 1 <= j <= |names|
      ensures j in ix
    {
      assert names[j - 1] in multiset(order);
      var k :| 0 <= k < |order| && order[k] == names[j - 1];
      PositionOfStagedName(names, ix[k] - 1, j - 1);
      assert ix[k] == j;
    }
  }

  lemma PositionOfStagedName(names: seq<string>, a: nat, b: nat)
    requires IndexedByPosition(names) && a < |names| && b < |names| && names[a] == names[b]
    ensures a == b
  {
  }

  /**
    The 1-based staging index of each frame in the order the frame loop of line 100
    writes them: frame k (0-based) is the copy of source `FrameIndices(sources)[k] - 1`.
  */
  function FrameIndices(sources: seq<string>): (ix: seq<nat>)
    ensures |ix| == |sources| && |FrameOrder(Stage(sources))| == |sources|
    ensures forall k | 0 <= k < |ix| ::
      1 <= ix[k] <= |sources| && FrameOrder(Stage(sources))[k] == Stage(sources)[ix[k] - 1]
    ensures forall j | 1 <= j <= |sources| :: j in ix
  {
    StageIndexedByPosition(sources);
    FramePositionsCover(Stage(sources));
    FramePositions(Stage(sources))
  }

  /** The least of a set of names comes first in any sorted arrangement of them. */
  lemma LeastComesFirst(order: seq<string>, names: seq<string>)
    requires Sorted(order) && multiset(order) == multiset(names) && |order| == |names| >= 1
    requires forall k | 1 <= k < |names| :: Less(names[0], names[k])
    ensures order[0] == names[0]
  {
    assert names[0] in multiset(order);
    HeadIsLeast(order, names[0]);
    assert order[0] in multiset(names);
    var j :| 0 <= j < |names| && names[j] == order[0];
    assert LessEq(names[0], order[0]);
    LessEqAntisymmetric(order[0], names[0]);
  }

  /** When the first staged name is the least, the frame loop reads its copy first. */
  lemma FramePositionsStartAtOne(names: seq<string>)
    requires IndexedByPosition(names) && |names| >= 1
    requires forall k | 1 <= k < |names| :: Less(names[0], names[k])
    ensures FramePositions(names)[0] == 1
  {
    var order, ix := FrameOrder(names), FramePositions(names);
    FrameOrderPermutes(names);
    LeastComesFirst(order, names);
    PositionOfStagedName(names, ix[0] - 1, 0);
  }

  /** The first frame is always the copy of the first source image, whatever their number. */
  lemma FrameIndicesStartAtOne(sources: seq<string>)
    requires |sources| >= 1
    ensures FrameIndices(sources)[0] == 1
  {
    StageIndexedByPosition(sources);
    StageFirstLeast(sources);
    FramePositionsStartAtOne(Stage(sources));
  }

  /** The indices 1, 2, ..., n: frame k is the copy of source k. */
  function Positions(n: nat): (ix: seq<nat>)
    ensures |ix| == n && forall k | 0 <= k < n :: ix[k] == k + 1
  {
    seq(n, k requires 0 <= k < n => k + 1)
  }

  /** The frames follow the sorted image order exactly when there are at most 9999 images. */
  lemma FrameIndicesInOrder(sources: seq<string>)
    ensures FrameIndices(sources) == Positions(|sources|) <==> |sources| <= 9999
  {
    StageIndexedByPosition(sources);
    FramePositionsInOrder(Stage(sources));
    FrameOrderMatchesStaging(sources, Stage(sources));
  }

  lemma FramePositionsInOrder(names: seq<string>)
    requires IndexedByPosition(names)
    ensures FrameOrder(names) == names <==> FramePositions(names) == Positions(|names|)
  {
    InOrderIffPositions(FrameOrder(names), names, FramePositions(names));
  }

  /**
    A sequence whose entry k is entry `ix[k] - 1` of the staged names `names` is `names`
    itself exactly when `ix` counts 1, 2, ..., |names|.
  */
  lemma InOrderIffPositions(order: seq<string>, names: seq<string>, ix: seq<nat>)
    requires IndexedByPosition(names)
    requires |order| == |names| == |ix|
    requires forall k | 0 <= k < |ix| :: 1 <= ix[k] <= |names| && order[k] == names[ix[k] - 1]
    ensures order == names <==> ix == Positions(|names|)
  {
    if order == names {
      forall k | 0 <= k < |ix|
        ensures ix[k] == k + 1
      {
        PositionOfStagedName(names, ix[k] - 1, k);
      }
      assert ix == Positions(|names|);
    }
    if ix == Positions(|names|) {
      forall k | 0 <= k < |order|
        ensures order[k] == names[k]
      {
        assert ix[k] == k + 1;
      }
      assert order == names;
    }
  }

  /** A video is made exactly when there is a source, every source decodes and a codec opens. */
  predicate EncodedWhenDecodable(outcome: EncodeOutcome, w: World, path: seq<string>, sources: seq<string>) {
    outcome.Encoded? <==>
      && sources != []
      && (forall k | 0 <= k < |sources| :: w.decode(path, sources[k]).Some?)
      && (exists i | 0 <= i < |Candidates| :: w.probe(path, Candidates[i]) == Opens)
  }

  /** Frame k of the video made, if any, is the enhanced decoding of source `ix[k] - 1`. */
  predicate FramesFollow(outcome: EncodeOutcome, w: World, path: seq<string>, sources: seq<string>, ix: seq<nat>) {
    outcome.Encoded? ==>
      && |outcome.video.frames| == |sources| == |ix|
      && forall k | 0 <= k < |sources| ::
           && 1 <= ix[k] <= |sources| && w.decode(path, sources[ix[k] - 1]).Some?
           && outcome.video.frames[k] == w.enhance(w.decode(path, sources[ix[k] - 1]).value)
  }

  /**
    How the encoding of copies of `sources`, read first-source-first, stops short: it
    raises at the first frame exactly when the first source does not decode, returns
    with no writer exactly when that source decodes and no codec opens, and raises
    exactly when the first source does not decode or a codec opens and some source does
    not decode.
  */
  predicate StopsAsSources(outcome: EncodeOutcome, w: World, path: seq<string>, sources: seq<string>) {
    sources != [] ==>
      && (outcome.FirstFrameUnreadable? <==> w.decode(path, sources[0]).None?)
      && (outcome.NoWriter? <==>
            && w.decode(path, sources[0]).Some?
            && forall i | 0 <= i < |Candidates| :: w.probe(path, Candidates[i]) != Opens)
      && (outcome.Raised() <==>
            || w.decode(path, sources[0]).None?
            || (&& (exists i | 0 <= i < |Candidates| :: w.probe(path, Candidates[i]) == Opens)
                && exists k | 0 <= k < |sources| :: w.decode(path, sources[k]).None?))
  }

  /** `outcome` encodes copies of `sources`, written in the order `ix` gives. */
  predicate EncodesInOrder(outcome: EncodeOutcome, w: World, path: seq<string>, sources: seq<string>, ix: seq<nat>) {
    EncodedWhenDecodable(outcome, w, path, sources) && FramesFollow(outcome, w, path, sources, ix)
  }

  /** Lines 151-161 for one leaf folder. */
  function LeafJob(v: Visit, w: World): (e: Event)
    requires IsLeafVisit(v)
    ensures e.at == v
    ensures e.Skipped? <==> forall i | 0 <= i < |v.folder.entries| :: !IsImageName(v.folder.entries[i].name)
    ensures e.StagingFailed? <==> !e.Skipped? && StagingFolder in Names(v.folder.entries)
    ensures e.Generated? ==> e.outputName == OutputName(v.folder.name)
    ensures e.Generated? ==> !e.outcome.NoStagingFolder? && !e.outcome.NoStagedImages?
    ensures e.Generated? && e.outcome.Encoded? ==>
      && e.outcome.video.folder == v.path
      && e.outcome.video.name == OutputName(v.folder.name)
      && e.outcome.video.frameRate == FrameRate
    ensures e.Generated? ==>
      EncodesInOrder(e.outcome, w, v.path, SortedImages(v), FrameIndices(SortedImages(v)))
    ensures e.Generated? && |SortedImages(v)| <= 9999 ==>
      EncodesInOrder(e.outcome, w, v.path, SortedImages(v), Positions(|SortedImages(v)|))
    ensures e.Generated? && |SortedImages(v)| >= 10000 ==>
      FrameIndices(SortedImages(v)) != Positions(|SortedImages(v)|)
    ensures e.Generated? ==>
      SortedImages(v) != [] && StopsAsSources(e.outcome, w, v.path, SortedImages(v))
  {
    var listing := Names(v.folder.entries);
    match RenameImages(listing)
    case NoImages => Skipped(v)
    case StagingBlocked => StagingFailed(v)
    case Staged(sources, names) =>
      var output := OutputName(v.folder.name);
      var read := ReadStaged(w, v.path, sources, names);
      var outcome := Generate(v.path, FrameRate, output, Some(names), read, ProbeFor(w, v.path), w.enhance);
      SortOfSortedImages(v, sources);
      JobFramesAreSources(w, v.path, output, sources);
      FrameIndicesInOrder(sources);
      Generated(v, output, outcome)
  }

  lemma SortOfSortedImages(v: Visit, sources: seq<string>)
    requires v.folder.Folder?
    requires Sorted(sources) && multiset(sources) == multiset(MatchImages(Names(v.folder.entries)))
    ensures sources == SortedImages(v)
  {
    SortedUnique(sources, SortedImages(v));
  }

  /** Opening a writer for the video of the folder at `path`. */
  function ProbeFor(w: World, path: seq<string>): Codec -> Probe {
    c => w.probe(path, c)
  }

  /**
    Staging `sources` as line 40 names them and encoding the staging folder: frame k
    is the copy of the source `FrameIndices` assigns to it.
  */
  lemma JobFramesAreSources(w: World, path: seq<string>, output: string, sources: seq<string>)
    ensures var names := Stage(sources);
      EncodesInOrder(Generate(path, FrameRate, output, Some(names), ReadStaged(w, path, sources, names),
                              ProbeFor(w, path), w.enhance),
                     w, path, sources, FrameIndices(sources))
    ensures var names := Stage(sources);
      StopsAsSources(Generate(path, FrameRate, output, Some(names), ReadStaged(w, path, sources, names),
                              ProbeFor(w, path), w.enhance),
                     w, path, sources)
  {
    StageIndexedByPosition(sources);
    StageFirstLeast(sources);
    StagedJobEncodes(w, path, output, sources, Stage(sources));
    StagedJobStops(w, path, output, sources, Stage(sources));
  }

  /** Encoding a staging folder of copies `names` of `sources`, in the frame order the loop reads them. */
  lemma StagedJobEncodes(w: World, path: seq<string>, output: string, sources: seq<string>, names: seq<string>)
    requires IndexedByPosition(names) && |names| == |sources|
    ensures EncodesInOrder(Generate(path, FrameRate, output, Some(names), ReadStaged(w, path, sources, names),
                                    ProbeFor(w, path), w.enhance),
                           w, path, sources, FramePositions(names))
  {
    FramePositionsCover(names);
    StagedReadsAreDecodes(w, path, sources, names);
    GeneratePermuted(w, path, output, sources, names, ReadStaged(w, path, sources, names), FramePositions(names));
  }

  /** How encoding a staging folder of copies `names` of `sources` stops, when the first copy sorts first. */
  lemma StagedJobStops(w: World, path: seq<string>, output: string, sources: seq<string>, names: seq<string>)
    requires IndexedByPosition(names) && |names| == |sources|
    requires forall k | 1 <= k < |names| :: Less(names[0], names[k])
    ensures StopsAsSources(Generate(path, FrameRate, output, Some(names), ReadStaged(w, path, sources, names),
                                    ProbeFor(w, path), w.enhance),
                           w, path, sources)
  {
    FramePositionsCover(names);
    StagedReadsAreDecodes(w, path, sources, names);
    if names != [] {
      FramePositionsStartAtOne(names);
    }
    GeneratePermutedStops(w, path, output, sources, names, ReadStaged(w, path, sources, names), FramePositions(names));
  }

  /** Copy k of the staging folder decodes as source k. */
  lemma StagedReadsAreDecodes(w: World, path: seq<string>, sources: seq<string>, names: seq<string>)
    requires IndexedByPosition(names) && |names| == |sources|
    ensures forall k | 0 <= k < |sources| :: ReadStaged(w, path, sources, names)(names[k]) == w.decode(path, sources[k])
  {
    forall k | 0 <= k < |names|
      ensures ReadStaged(w, path, sources, names)(names[k]) == w.decode(path, sources[k])
    {
      assert StagedIndex(names[k]) == k + 1;
    }
  }

  /**
    Encoding a staging folder whose k-th frame is a copy of source `ix[k] - 1`, where
    every source is copied into some frame.
  */
  lemma GeneratePermuted(w: World, path: seq<string>, output: string, sources: seq<string>,
                         names: seq<string>, read: string -> Option<Frame>, ix: seq<nat>)
    requires |FrameOrder(names)| == |names| == |sources| == |ix|
    requires forall k | 0 <= k < |ix| :: 1 <= ix[k] <= |sources|
    requires forall k | 0 <= k < |ix| :: FrameOrder(names)[k] == names[ix[k] - 1]
    requires forall k | 0 <= k < |sources| :: k < |names| && read(names[k]) == w.decode(path, sources[k])
    requires forall j | 1 <= j <= |sources| :: j in ix
    ensures EncodesInOrder(Generate(path, FrameRate, output, Some(names), read, ProbeFor(w, path), w.enhance),
                           w, path, sources, ix)
  {
    GeneratePermutedEncoded(w, path, output, sources, names, read, ix);
    GeneratePermutedFrames(w, path, output, sources, names, read, ix);
  }

  lemma GeneratePermutedEncoded(w: World, path: seq<string>, output: string, sources: seq<string>,
                                names: seq<string>, read: string -> Option<Frame>, ix: seq<nat>)
    requires |FrameOrder(names)| == |names| == |sources| == |ix|
    requires forall k | 0 <= k < |ix| :: 1 <= ix[k] <= |sources|
    requires forall k | 0 <= k < |ix| :: FrameOrder(names)[k] == names[ix[k] - 1]
    requires forall k | 0 <= k < |sources| :: k < |names| && read(names[k]) == w.decode(path, sources[k])
    requires forall j | 1 <= j <= |sources| :: j in ix
    ensures EncodedWhenDecodable(Generate(path, FrameRate, output, Some(names), read, ProbeFor(w, path), w.enhance),
                                 w, path, sources)
  {
    var images := FrameOrder(names);
    assert StagedFrames(Some(names)) == images;
    assert forall i | 0 <= i < |Candidates| :: ProbeFor(w, path)(Candidates[i]) == w.probe(path, Candidates[i]);
    ReadsAllIffDecodesAll(w, path, sources, images, read, ix);
  }

  /** Every frame reads exactly when every source decodes, when each frame is a copy and each source is copied. */
  lemma ReadsAllIffDecodesAll(w: World, path: seq<string>, sources: seq<string>, images: seq<string>,
                              read: string -> Option<Frame>, ix: seq<nat>)
    requires |images| == |sources| == |ix|
    requires forall k | 0 <= k < |ix| :: 1 <= ix[k] <= |sources| && read(images[k]) == w.decode(path, sources[ix[k] - 1])
    requires forall j | 1 <= j <= |sources| :: j in ix
    ensures (forall k | 0 <= k < |images| :: read(images[k]).Some?) <==>
            (forall j | 0 <= j < |sources| :: w.decode(path, sources[j]).Some?)
  {
    if forall k | 0 <= k < |images| :: read(images[k]).Some? {
      forall j | 0 <= j < |sources|
        ensures w.decode(path, sources[j]).Some?
      {
        assert j + 1 in ix;
        var k :| 0 <= k < |ix| && ix[k] == j + 1;
      }
    }
  }

  lemma GeneratePermutedStops(w: World, path: seq<string>, output: string, sources: seq<string>,
                              names: seq<string>, read: string -> Option<Frame>, ix: seq<nat>)
    requires |FrameOrder(names)| == |names| == |sources| == |ix|
    requires forall k | 0 <= k < |ix| :: 1 <= ix[k] <= |sources|
    requires forall k | 0 <= k < |ix| :: FrameOrder(names)[k] == names[ix[k] - 1]
    requires forall k | 0 <= k < |sources| :: k < |names| && read(names[k]) == w.decode(path, sources[k])
    requires forall j | 1 <= j <= |sources| :: j in ix
    requires ix != [] ==> ix[0] == 1
    ensures StopsAsSources(Generate(path, FrameRate, output, Some(names), read, ProbeFor(w, path), w.enhance),
                           w, path, sources)
  {
    var images := FrameOrder(names);
    assert StagedFrames(Some(names)) == images;
    assert forall i | 0 <= i < |Candidates| :: ProbeFor(w, path)(Candidates[i]) == w.probe(path, Candidates[i]);
    ReadsAllIffDecodesAll(w, path, sources, images, read, ix);
    if sources != [] {
      assert read(images[0]) == w.decode(path, sources[0]);
    }
  }

  lemma GeneratePermutedFrames(w: World, path: seq<string>, output: string, sources: seq<string>,
                               names: seq<string>, read: string -> Option<Frame>, ix: seq<nat>)
    requires |FrameOrder(names)| == |names| == |sources| == |ix|
    requires forall k | 0 <= k < |ix| :: 1 <= ix[k] <= |sources|
    requires forall k | 0 <= k < |ix| :: FrameOrder(names)[k] == names[ix[k] - 1]
    requires forall k | 0 <= k < |sources| :: k < |names| && read(names[k]) == w.decode(path, sources[k])
    ensures FramesFollow(Generate(path, FrameRate, output, Some(names), read, ProbeFor(w, path), w.enhance),
                         w, path, sources, ix)
  {
    var images := FrameOrder(names);
    assert StagedFrames(Some(names)) == images;
    assert forall k | 0 <= k < |images| :: read(images[k]) == w.decode(path, sources[ix[k] - 1]);
  }

  /**
    With the corrected naming of `WideStage`, frame k of the video is the enhanced k-th
    source image, whatever the number of images.
  */
  lemma CorrectedJobFramesAreSources(w: World, path: seq<string>, output: string, sources: seq<string>)
    ensures var names := WideStage(sources);
      EncodesInOrder(Generate(path, FrameRate, output, Some(names), ReadStaged(w, path, sources, names),
                              ProbeFor(w, path), w.enhance),
                     w, path, sources, Positions(|sources|))
    ensures var names := WideStage(sources);
      StopsAsSources(Generate(path, FrameRate, output, Some(names), ReadStaged(w, path, sources, names),
                              ProbeFor(w, path), w.enhance),
                     w, path, sources)
  {
    var names := WideStage(sources);
    WideFrameOrderMatchesStaging(sources, names);
    WideStageIndexedByPosition(sources);
    StagedReadsAreDecodes(w, path, sources, names);
    GenerateInOrder(w, path, output, sources, names, ReadStaged(w, path, sources, names));
  }

  /** Encoding a staging folder whose frame order is its staging order, with staged name k a copy of source k. */
  lemma GenerateInOrder(w: World, path: seq<string>, output: string, sources: seq<string>,
                        names: seq<string>, read: string -> Option<Frame>)
    requires FrameOrder(names) == names && |names| == |sources|
    requires forall k | 0 <= k < |sources| :: read(names[k]) == w.decode(path, sources[k])
    ensures EncodesInOrder(Generate(path, FrameRate, output, Some(names), read, ProbeFor(w, path), w.enhance),
                           w, path, sources, Positions(|sources|))
    ensures StopsAsSources(Generate(path, FrameRate, output, Some(names), read, ProbeFor(w, path), w.enhance),
                           w, path, sources)
  {
    var ix := Positions(|sources|);
    forall j | 1 <= j <= |sources|
      ensures j in ix
    {
      assert ix[j - 1] == j;
    }
    GeneratePermuted(w, path, output, sources, names, read, ix);
    GeneratePermutedStops(w, path, output, sources, names, read, ix);
  }

  /** The leaf folders among `vs`, in walk order. */
  function LeafVisits(vs: seq<Visit>): (r: seq<Visit>)
    ensures forall k | 0 <= k < |r| :: IsLeafVisit(r[k])
    ensures |r| <= |vs|
  {
    if vs == [] then []
    else (if IsLeafVisit(vs[0]) then [vs[0]] else []) + LeafVisits(vs[1..])
  }

  /** A visit is among the leaf visits exactly when it is a visit of a leaf folder. */
  lemma {:induction false} LeafVisitsAreTheLeaves(vs: seq<Visit>, v: Visit)
    ensures v in LeafVisits(vs) <==> v in vs && IsLeafVisit(v)
  {
    if vs != [] {
      LeafVisitsAreTheLeaves(vs[1..], v);
      assert vs == [vs[0]] + vs[1..];
    }
  }

  /**
    The leaf visits of the walk from `root` are the leaf folders reachable from it, each
    under the root's name followed by the names leading to it.
  */
  lemma LeavesOfTree(root: Entry, v: Visit)
    requires root.Folder?
    ensures v in LeafVisits(Walk([root.name], root)) <==>
      && |v.path| >= 1 && v.path[0] == root.name
      && Reaches(root, v.path[1..], v.folder) && IsLeaf(v.folder.entries)
  {
    LeafVisitsAreTheLeaves(Walk([root.name], root), v);
    WalkReaches([root.name], root, v);
    if |v.path| >= 1 {
      assert v.path[..1] == [v.path[0]];
    }
  }

  /** Keeping the leaves keeps the paths distinct. */
  lemma {:induction false} LeafVisitsOnce(vs: seq<Visit>)
    requires DistinctPaths(vs)
    ensures DistinctPaths(LeafVisits(vs))
  {
    if vs != [] {
      var head := if IsLeafVisit(vs[0]) then [vs[0]] else [];
      var rest := LeafVisits(vs[1..]);
      assert DistinctPaths(vs[1..]) by {
        forall i, j | 0 <= i < j < |vs| - 1
          ensures vs[1..][i].path != vs[1..][j].path
        {
          assert vs[1..][i] == vs[i + 1] && vs[1..][j] == vs[j + 1];
        }
      }
      LeafVisitsOnce(vs[1..]);
      forall x, y | x in head && y in rest
        ensures x.path != y.path
      {
        LeafVisitsAreTheLeaves(vs[1..], y);
        var j :| 0 <= j < |vs| - 1 && vs[1..][j] == y;
        assert vs[j + 1] == y;
      }
      DistinctPathsAppend(head, rest);
    }
  }

  /**
    In a tree whose sibling names are distinct, as in a file system, each leaf folder is
    handled under its own path: no leaf is visited twice.
  */
  lemma LeavesOnce(root: Entry)
    requires root.Folder? && DistinctNames(root)
    ensures DistinctPaths(LeafVisits(Walk([root.name], root)))
  {
    WalkOnce([root.name], root);
    LeafVisitsOnce(Walk([root.name], root));
  }

  /** The folders the events are about. */
  function Sites(events: seq<Event>): (r: seq<Visit>)
    ensures |r| == |events|
    ensures forall k | 0 <= k < |events| :: r[k] == events[k].at
  {
    seq(|events|, k requires 0 <= k < |events| => events[k].at)
  }

  /** The events of a batch; `aborted` when an exception ended it early. */
  datatype BatchRun = BatchRun(events: seq<Event>, aborted: bool)

  /** The job of every leaf folder, in walk order. */
  function Jobs(leaves: seq<Visit>, w: World): (r: seq<Event>)
    requires forall k | 0 <= k < |leaves| :: IsLeafVisit(leaves[k])
    ensures |r| == |leaves| && Sites(r) == leaves
    ensures forall k | 0 <= k < |leaves| :: r[k] == LeafJob(leaves[k], w)
  {
    var r := seq(|leaves|, k requires 0 <= k < |leaves| => LeafJob(leaves[k], w));
    assert forall k | 0 <= k < |leaves| :: Sites(r)[k] == leaves[k];
    r
  }

  /** The sites of a prefix of the events are a prefix of their sites. */
  lemma SitesOfPrefix(events: seq<Event>, prefix: seq<Event>)
    requires prefix <= events
    ensures Sites(prefix) <= Sites(events)
  {
    assert forall k | 0 <= k < |prefix| :: Sites(prefix)[k] == Sites(events)[k];
  }

  /**
    The body of the `for current_folder, dirs, files in os.walk(root_folder)` loop, run
    over the jobs of the leaf folders in walk order (other folders make the body do
    nothing): the first exception ends the loop, and the jobs after it never run.
  */
  function RunJobs(jobs: seq<Event>): (r: BatchRun)
    ensures r.events <= jobs
    ensures !r.aborted ==> r.events == jobs
    ensures r.aborted ==> |r.events| >= 1
    ensures StopsAtFirstCrash(r)
  {
    if jobs == [] then BatchRun([], false)
    else if Crashed(jobs[0]) then BatchRun([jobs[0]], true)
    else
      var rest := RunJobs(jobs[1..]);
      BatchRun([jobs[0]] + rest.events, rest.aborted)
  }

  /** No job before the last raised, and the run was aborted exactly when the last one did. */
  predicate StopsAtFirstCrash(run: BatchRun) {
    && (forall k | 0 <= k < |run.events| - 1 :: !Crashed(run.events[k]))
    && (run.aborted <==> |run.events| >= 1 && Crashed(run.events[|run.events| - 1]))
  }

  /**
    The jobs of the leaf folders in walk order, up to and including the first that
    raised: the folders handled are a prefix of the leaves, all of them unless aborted.
  */
  function RunLeaves(leaves: seq<Visit>, w: World): (run: BatchRun)
    requires forall k | 0 <= k < |leaves| :: IsLeafVisit(leaves[k])
    ensures Sites(run.events) <= leaves
    ensures !run.aborted ==> Sites(run.events) == leaves
    ensures forall k | 0 <= k < |run.events| :: run.events[k] == LeafJob(leaves[k], w)
    ensures StopsAtFirstCrash(run)
  {
    var jobs := Jobs(leaves, w);
    var run := RunJobs(jobs);
    SitesOfPrefix(jobs, run.events);
    assert forall k | 0 <= k < |run.events| :: run.events[k] == jobs[k];
    run
  }

  /** What `os.path.exists` and `os.walk` find at the root path. */
  datatype Root = Missing | Present(top: Entry)

  datatype MainResult =
    | RootMissing          // the path does not exist: an error is printed, nothing is walked
    | Finished(run: BatchRun)

  /** `main` for the root folder, after the path has been read and made absolute. */
  function Main(root: Root, w: World): (r: MainResult)
    ensures r.RootMissing? <==> root.Missing?
    ensures root.Present? && root.top.File? ==> r == Finished(BatchRun([], false))
    ensures root.Present? && root.top.Folder? ==>
      var leaves := LeafVisits(Walk([root.top.name], root.top));
      && r.Finished?
      && Sites(r.run.events) <= leaves
      && (!r.run.aborted ==> Sites(r.run.events) == leaves)
      && (forall k | 0 <= k < |r.run.events| :: r.run.events[k] == LeafJob(leaves[k], w))
      && StopsAtFirstCrash(r.run)
      && (DistinctNames(root.top) ==> DistinctPaths(Sites(r.run.events)))
  {
    match root
    case Missing => RootMissing
    case Present(top) =>
      if top.File? then Finished(BatchRun([], false))   // walking a plain file yields nothing
      else
        var leaves := LeafVisits(Walk([top.name], top));
        var run := RunLeaves(leaves, w);
        assert DistinctNames(top) ==> DistinctPaths(Sites(run.events)) by {
          if DistinctNames(top) {
            LeavesOnce(top);
            DistinctPathsPrefix(Sites(run.events), leaves);
          }
        }
        Finished(run)
  }

  /**
    The tree `root/A/<files>`, `root/B/C/<files>` (for instance `root/A/img1.png`,
    `root/A/img2.png` and `root/B/C/img1.jpg`): the leaves handled are `A` and then `C`;
    `B` holds a folder, so it is never encoded itself.
  */
  lemma TwoLeafTree(path: seq<string>, root: string, nameA: string, nameB: string, nameC: string,
                    filesA: seq<Entry>, filesC: seq<Entry>)
    requires IsLeaf(filesA) && IsLeaf(filesC)
    ensures var a, c := Folder(nameA, filesA), Folder(nameC, filesC);
      LeafVisits(Walk(path, Folder(root, [a, Folder(nameB, [c])]))) ==
        [Visit(path + [nameA], a), Visit(path + [nameB] + [nameC], c)]
  {
    var a, c := Folder(nameA, filesA), Folder(nameC, filesC);
    var b := Folder(nameB, [c]);
    var top := Folder(root, [a, b]);
    var va, vc := Visit(path + [nameA], a), Visit(path + [nameB] + [nameC], c);
    LeafAlone(path + [nameA], a);
    OneChildLeaves(path + [nameB], b);
    var rest := WalkFrom(path, top, 1);
    assert rest == Walk(path + [nameB], b) + WalkFrom(path, top, 2);
    assert WalkFrom(path, top, 2) == [];
    assert rest == Walk(path + [nameB], b);
    assert WalkFrom(path, top, 0) == Walk(path + [nameA], a) + rest;
    LeafVisitsAppend(Walk(path + [nameA], a), rest);
    LeavesOfInnerFolder(path, top, 0);
  }

  /** A leaf's walk yields the leaf, and it is kept. */
  lemma LeafAlone(path: seq<string>, d: Entry)
    requires d.Folder? && IsLeaf(d.entries)
    ensures LeafVisits(Walk(path, d)) == [Visit(path, d)]
  {
    WalkOfLeaf(path, d);
    assert IsLeafVisit(Visit(path, d));
    assert LeafVisits([Visit(path, d)]) == [Visit(path, d)] + LeafVisits([]);
  }

  /** A folder whose only entry is a leaf folder contributes just that leaf. */
  lemma OneChildLeaves(path: seq<string>, d: Entry)
    requires d.Folder? && |d.entries| == 1 && d.entries[0].Folder? && IsLeaf(d.entries[0].entries)
    ensures LeafVisits(Walk(path, d)) == [Visit(path + [d.entries[0].name], d.entries[0])]
  {
    var c := d.entries[0];
    LeafAlone(path + [c.name], c);
    assert WalkFrom(path, d, 1) == [];
    assert WalkFrom(path, d, 0) == Walk(path + [c.name], c) + [];
    assert WalkFrom(path, d, 0) == Walk(path + [c.name], c);
    LeavesOfInnerFolder(path, d, 0);
  }

  /** The leaves of a walk that starts at a folder with a sub-folder are those of its sub-walks. */
  lemma LeavesOfInnerFolder(path: seq<string>, d: Entry, i: nat)
    requires d.Folder? && i < |d.entries| && d.entries[i].Folder?
    ensures LeafVisits(Walk(path, d)) == LeafVisits(WalkFrom(path, d, 0))
  {
    LeafVisitsAppend([Visit(path, d)], WalkFrom(path, d, 0));
    assert !IsLeafVisit(Visit(path, d));
  }

  /** Leaf selection distributes over concatenation. */
  lemma {:induction false} LeafVisitsAppend(xs: seq<Visit>, ys: seq<Visit>)
    ensures LeafVisits(xs + ys) == LeafVisits(xs) + LeafVisits(ys)
  {
    if xs != [] {
      assert (xs + ys)[0] == xs[0] && (xs + ys)[1..] == xs[1..] + ys;
      LeafVisitsAppend(xs[1..], ys);
    } else {
      assert xs + ys == ys;
    }
  }

}

=== FILE: codecs.dfy ===
/**
  Codec negotiation of `generate_mp4_from_images`: the fixed priority list of FourCC
  codes is tried in order, and the first writer that reports itself open is kept.
  Whether a writer opens is not modelled; `probe` says, per candidate, what opening
  the writer did.
*/
module Codecs {
  import opened Wrappers

  /** A candidate: FourCC code and the colour flag passed to the writer. */
  datatype Codec = Codec(fourcc: string, isColor: bool)

  /** The priority list of lines 70-75. */
  const Candidates: seq<Codec> := [
    Codec("avc1", true),   // H.264
    Codec("mp4v", true),   // MPEG-4
    Codec("XVID", true),
    Codec("MJPG", true)
  ]

  /** What trying one candidate did. */
  datatype Probe =
    | Opens        // `out.isOpened()` holds: the loop breaks
    | StaysClosed  // the writer was built but is not open: the next candidate is tried
    | Raises       // building the writer raised: a warning is printed, the next is tried

  datatype Negotiation = Negotiation(
    attempted: seq<Codec>,  // candidates tried, in order
    warned: seq<Codec>,     // candidates whose attempt raised ("Codec ... failed, trying next...")
    chosen: Option<Codec>)  // the open writer's codec; None means "Could not create video writer"

  /** The `for codec, is_color in codecs` loop with its `break` on the first open writer. */
  function Negotiate(cs: seq<Codec>, probe: Codec -> Probe): (n: Negotiation)
    ensures n.attempted <= cs
    ensures n.chosen.Some? ==> |n.attempted| >= 1 && n.chosen.value == n.attempted[|n.attempted| - 1]
  {
    if cs == [] then Negotiation([], [], None)
    else
      var p := probe(cs[0]);
      if p == Opens then Negotiation([cs[0]], [], Some(cs[0]))
      else
        var rest := Negotiate(cs[1..], probe);
        assert cs == [cs[0]] + cs[1..];
        Negotiation([cs[0]] + rest.attempted, (if p == Raises then [cs[0]] else []) + rest.warned, rest.chosen)
  }

  /** Index of the first candidate that opens, or `|cs|` when none does. */
  function FirstOpening(cs: seq<Codec>, probe: Codec -> Probe): (k: nat)
    ensures k <= |cs|
    ensures forall i | 0 <= i < k :: probe(cs[i]) != Opens
    ensures k < |cs| ==> probe(cs[k]) == Opens
  {
    if cs == [] || probe(cs[0]) == Opens then 0 else 1 + FirstOpening(cs[1..], probe)
  }

  /**
    Negotiation tries exactly the candidates up to and including the first that opens,
    and settles on that one; when none opens, it tries them all and settles on none.
  */
  lemma NegotiateStopsAtFirstOpening(cs: seq<Codec>, probe: Codec -> Probe)
    ensures var k := FirstOpening(cs, probe);
      && Negotiate(cs, probe).attempted == (if k < |cs| then cs[..k + 1] else cs)
      && Negotiate(cs, probe).chosen == (if k < |cs| then Some(cs[k]) else None)
  {
    NegotiateTriesUpToFirstOpening(cs, probe);
    NegotiateChoosesFirstOpening(cs, probe);
  }

  lemma {:induction false} NegotiateTriesUpToFirstOpening(cs: seq<Codec>, probe: Codec -> Probe)
    ensures var k := FirstOpening(cs, probe);
      Negotiate(cs, probe).attempted == (if k < |cs| then cs[..k + 1] else cs)
  {
    if cs != [] && probe(cs[0]) != Opens {
      NegotiateTriesUpToFirstOpening(cs[1..], probe);
      var k := FirstOpening(cs[1..], probe);
      if k < |cs| - 1 {
        assert [cs[0]] + cs[1..][..k + 1] == cs[..k + 2];
      } else {
        assert [cs[0]] + cs[1..] == cs;
      }
    }
  }

  lemma {:induction false} NegotiateChoosesFirstOpening(cs: seq<Codec>, probe: Codec -> Probe)
    ensures var k := FirstOpening(cs, probe);
      Negotiate(cs, probe).chosen == (if k < |cs| then Some(cs[k]) else None)
  {
    if cs != [] && probe(cs[0]) != Opens {
      NegotiateChoosesFirstOpening(cs[1..], probe);
    }
  }

  /** A warning is printed for exactly the candidates tried whose writer raised. */
  lemma {:induction false} NegotiateWarnsOnRaise(cs: seq<Codec>, probe: Codec -> Probe)
    ensures var n := Negotiate(cs, probe);
      forall c :: c in n.warned <==> c in n.attempted && probe(c) == Raises
  {
    if cs != [] && probe(cs[0]) != Opens {
      NegotiateWarnsOnRaise(cs[1..], probe);
    }
  }

  /**
    What the negotiation loop promises its caller: a writer is kept exactly when some
    candidate opens, it is the last one tried, and every candidate tried before it stayed
    closed or raised; with no writer, every candidate was tried and none opened.
  */
  lemma {:induction false} NegotiateOutcome(cs: seq<Codec>, probe: Codec -> Probe)
    ensures var n := Negotiate(cs, probe);
      && (forall i | 0 <= i < |n.attempted| - 1 :: probe(n.attempted[i]) != Opens)
      && (n.chosen.Some? <==> exists i | 0 <= i < |cs| :: probe(cs[i]) == Opens)
      && (n.chosen.Some? ==> probe(n.chosen.value) == Opens)
      && (n.chosen.None? ==> n.attempted == cs && forall i | 0 <= i < |cs| :: probe(cs[i]) != Opens)
  {
    NegotiateStopsAtFirstOpening(cs, probe);
  }

  /** If only the third candidate opens, candidates one to three are tried, and not the fourth. */
  lemma OnlyThirdCandidateOpens(probe: Codec -> Probe)
    requires probe(Candidates[0]) != Opens && probe(Candidates[1]) != Opens
    requires probe(Candidates[2]) == Opens
    ensures Negotiate(Candidates, probe).attempted == Candidates[..3]
    ensures Negotiate(Candidates, probe).chosen == Some(Codec("XVID", true))
  {
    NegotiateStopsAtFirstOpening(Candidates, probe);
    assert FirstOpening(Candidates, probe) == 2;
  }

}

=== FILE: collator.dfy ===
/**
  The frame collator, `rename_images_in_folder`: pick the image files of a folder by a
  case-insensitive suffix allow-list, sort them by name, and stage a copy of the file at
  1-based position i as `tmp_img_seq/image_<i padded to at least four digits><ext>`,
  where `<ext>` is the original file's extension in its original case.
*/
module Collator {
  import opened Wrappers
  import opened Text
  import opened Sorting
  import opened Decimal

  /** The allow-list of line 23, in lower case; matching lower-cases the file name. */
  const ImageExtensions: seq<string> := [".jpg", ".jpeg", ".png", ".bmp", ".gif", ".tiff", ".tif"]

  /** The reserved staging sub-folder created inside a leaf folder. */
  const StagingFolder: string := "tmp_img_seq"

  const StagedPrefix: string := "image_"

  /** Minimum number of digits of a staged index (`{idx:04d}`). */
  const IndexWidth: nat := 4

  /** `f.lower().endswith(exts)`. */
  predicate IsImageName(name: string) {
    exists e | e in ImageExtensions :: EndsWith(Lower(name), e)
  }

  /** The comprehension of line 24: the image names of a directory listing. */
  function MatchImages(listing: seq<string>): (r: seq<string>)
    ensures forall x :: multiset(r)[x] == if IsImageName(x) then multiset(listing)[x] else 0
    ensures forall i | 0 <= i < |r| :: IsImageName(r[i])
  {
    if listing == [] then []
    else
      assert listing == [listing[0]] + listing[1..];
      (if IsImageName(listing[0]) then [listing[0]] else []) + MatchImages(listing[1..])
  }

  /** The listing holds an image name exactly when the match list is not empty. */
  lemma MatchesEmptyIffNoImages(listing: seq<string>)
    ensures MatchImages(listing) == [] <==> forall i | 0 <= i < |listing| :: !IsImageName(listing[i])
  {
    var r := MatchImages(listing);
    if r == [] {
      forall i | 0 <= i < |listing|
        ensures !IsImageName(listing[i])
      {
        assert listing[i] in multiset(listing);
        assert multiset(r)[listing[i]] == 0;
      }
    } else {
      assert IsImageName(r[0]);
      assert r[0] in multiset(r);
      assert r[0] in multiset(listing);
    }
  }

  /** `name.rfind('.')`: the position of the last dot, or -1. */
  function LastDot(name: string): (k: int)
    ensures -1 <= k < |name|
    ensures k >= 0 ==> name[k] == '.'
    ensures forall j | k < j < |name| :: name[j] != '.'
  {
    if name == [] then -1
    else if name[|name| - 1] == '.' then |name| - 1
    else LastDot(name[..|name| - 1])
  }

  /**
    `os.path.splitext(name)[1]` for a name without separators: the suffix from the last
    dot, unless everything before that dot is a dot as well (`.png` has no extension).
  */
  function Extension(name: string): (ext: string)
    ensures EndsWith(name, ext)
    ensures ext != [] ==> ext[0] == '.' && forall i | 1 <= i < |ext| :: ext[i] != '.'
    ensures ext == [] <==> forall j | 0 <= j < LastDot(name) :: name[j] == '.'
  {
    var dot := LastDot(name);
    if dot >= 0 && exists j | 0 <= j < dot :: name[j] != '.' then name[dot..] else []
  }

  lemma AllowListShape()
    ensures forall e | e in ImageExtensions :: |e| >= 2 && e[0] == '.'
    ensures forall e, i | e in ImageExtensions && 1 <= i < |e| :: 'a' <= e[i] <= 'z'
  {
  }

  /**
    A selected image keeps its allow-listed extension: when `splitext` finds one, it is
    the literal suffix of the file name and lower-cases to an entry of the allow-list.
  */
  lemma ImageExtensionKept(name: string)
    requires IsImageName(name)
    ensures Extension(name) != [] ==> Lower(Extension(name)) in ImageExtensions
  {
    var e :| e in ImageExtensions && EndsWith(Lower(name), e);
    var m := |name| - |e|;
    AllowedSuffixDots(name, e);
    LastDotIs(name, m);
    var ext := Extension(name);
    if ext != [] {
      assert ext == name[m..];
      LowerSuffix(name, m);
    }
  }

  /** In a name ending with an allow-listed extension, the extension's dot is the last dot. */
  lemma AllowedSuffixDots(name: string, e: string)
    requires e in ImageExtensions && EndsWith(Lower(name), e)
    ensures |e| <= |name| && name[|name| - |e|] == '.'
    ensures forall j | |name| - |e| < j < |name| :: name[j] != '.'
  {
    AllowListShape();
    var m := |name| - |e|;
    assert LowerChar(name[m]) == Lower(name)[m] == e[0];
    forall j | m < j < |name|
      ensures name[j] != '.'
    {
      assert LowerChar(name[j]) == Lower(name)[j] == e[j - m];
    }
  }

  lemma LastDotIs(name: string, m: nat)
    requires m < |name| && name[m] == '.'
    requires forall j | m < j < |name| :: name[j] != '.'
    ensures LastDot(name) == m
  {
  }

  lemma LowerSuffix(s: string, m: nat)
    requires m <= |s|
    ensures Lower(s[m..]) == Lower(s)[m..]
  {
  }

  /** The staged file name for index `index`, padded to at least `width` digits. */
  function StagedName(index: nat, width: nat, ext: string): string {
    StagedPrefix + (Pad(index, width) + ext)
  }

  /** Length of the longest prefix of decimal digits. */
  function DigitRun(s: string): (k: nat)
    ensures k <= |s| && AllDigits(s[..k])
    ensures k < |s| ==> !IsDigit(s[k])
  {
    if s == [] || !IsDigit(s[0]) then 0
    else
      var k := 1 + DigitRun(s[1..]);
      assert s[..k] == [s[0]] + s[1..][..k - 1];
      k
  }

  /** Reads a staged name back into its index and extension. */
  function ParseStagedName(name: string): Option<(nat, string)> {
    if !StartsWith(name, StagedPrefix) then None
    else
      var rest := name[|StagedPrefix|..];
      var k := DigitRun(rest);
      if k == 0 then None else Some((Value(rest[..k]), rest[k..]))
  }

  /** An extension as `splitext` returns it: empty, or starting with a dot. */
  predicate ExtensionShaped(ext: string) {
    ext == [] || ext[0] == '.'
  }

  lemma {:induction false} DigitRunOfConcat(p: string, e: string)
    requires AllDigits(p) && ExtensionShaped(e)
    ensures DigitRun(p + e) == |p|
  {
    if p == [] {
      assert p + e == e;
    } else {
      assert (p + e)[1..] == p[1..] + e;
      DigitRunOfConcat(p[1..], e);
    }
  }

  /** Parsing inverts staging: the index and the extension come back unchanged. */
  lemma StagedNameRoundTrip(index: nat, width: nat, ext: string)
    requires ExtensionShaped(ext)
    ensures ParseStagedName(StagedName(index, width, ext)) == Some((index, ext))
  {
    var p := Pad(index, width);
    var name := StagedName(index, width, ext);
    assert name[..|StagedPrefix|] == StagedPrefix;
    var rest := name[|StagedPrefix|..];
    assert rest == p + ext;
    DigitRunOfConcat(p, ext);
    assert rest[..|p|] == p && rest[|p|..] == ext;
  }

  /**
    A name that reads back as `(index, ext)` and is as long as the `width`-padded
    staged name is that staged name: the padding is the only freedom the parse leaves.
  */
  lemma StagedNameDetermined(name: string, index: nat, width: nat, ext: string)
    requires ParseStagedName(name) == Some((index, ext))
    requires |name| == |StagedPrefix| + PadLength(index, width) + |ext|
    ensures name == StagedName(index, width, ext)
  {
    var rest := name[|StagedPrefix|..];
    var k := DigitRun(rest);
    var p := Pad(index, width);
    assert rest[k..] == ext && Value(rest[..k]) == index;
    assert |rest[..k]| == |p|;
    SameLengthSameValue(rest[..k], p);
    assert rest == rest[..k] + rest[k..];
    assert name == name[..|StagedPrefix|] + rest;
  }

  /** The extensions of the files, position by position. */
  function Extensions(sources: seq<string>): (exts: seq<string>)
    ensures |exts| == |sources|
    ensures forall k | 0 <= k < |exts| :: exts[k] == Extension(sources[k]) && ExtensionShaped(exts[k])
  {
    seq(|sources|, k requires 0 <= k < |sources| => Extension(sources[k]))
  }

  /** The name given to the copy at every position, with indices padded to at least `width`. */
  function StagedNames(exts: seq<string>, width: nat): seq<string> {
    seq(|exts|, k requires 0 <= k < |exts| => StagedName(k + 1, width, exts[k]))
  }

  /** The staged names for files with extensions `exts`, with indices padded to at least `width`. */
  function StageWith(exts: seq<string>, width: nat): (names: seq<string>)
    requires forall k | 0 <= k < |exts| :: ExtensionShaped(exts[k])
    ensures |names| == |exts|
    ensures forall k | 0 <= k < |names| :: ParseStagedName(names[k]) == Some((k + 1, exts[k]))
    ensures forall k | 0 <= k < |names| :: |names[k]| == |StagedPrefix| + PadLength(k + 1, width) + |exts[k]|
  {
    var names := StagedNames(exts, width);
    forall k | 0 <= k < |names|
      ensures ParseStagedName(names[k]) == Some((k + 1, exts[k]))
    {
      assert names[k] == StagedName(k + 1, width, exts[k]);
      StagedNameRoundTrip(k + 1, width, exts[k]);
    }
    names
  }

  /** Staged names differ whenever their positions differ. */
  lemma StagedNamesDistinct(exts: seq<string>, width: nat)
    requires forall k | 0 <= k < |exts| :: ExtensionShaped(exts[k])
    ensures forall k, l | 0 <= k < l < |exts| :: StageWith(exts, width)[k] != StageWith(exts, width)[l]
  {
  }

  /** Staged names are in index order as long as every index fits the width. */
  lemma StagedNamesOrdered(exts: seq<string>, width: nat)
    requires forall k | 0 <= k < |exts| :: ExtensionShaped(exts[k])
    requires |Digits(|exts|)| <= width
    ensures StrictlySorted(StageWith(exts, width))
  {
    var names := StagedNames(exts, width);
    forall k, l | 0 <= k < l < |names|
      ensures Less(names[k], names[l])
    {
      StagedPairOrdered(exts, width, k, l);
    }
    assert StageWith(exts, width) == names;
  }

  lemma StagedPairOrdered(exts: seq<string>, width: nat, k: nat, l: nat)
    requires k < l < |exts| && |Digits(|exts|)| <= width
    ensures Less(StagedNames(exts, width)[k], StagedNames(exts, width)[l])
  {
    DigitsMonotone(l + 1, |exts|);
    StagedNameOrder(k + 1, l + 1, width, exts[k], exts[l]);
  }

  /** With a width of at least two, the first staged name sorts below every other one, for any count. */
  lemma FirstStagedNameLeast(exts: seq<string>, width: nat)
    requires width >= 2
    ensures forall k | 1 <= k < |exts| :: Less(StagedNames(exts, width)[0], StagedNames(exts, width)[k])
  {
    forall k | 1 <= k < |exts|
      ensures Less(StagedNames(exts, width)[0], StagedNames(exts, width)[k])
    {
      PadOneLeast(k + 1, width, exts[0], exts[k]);
      LessCommonPrefix(StagedPrefix, Pad(1, width) + exts[0], Pad(k + 1, width) + exts[k]);
    }
  }

  lemma StagedAt(exts: seq<string>, width: nat, k: nat)
    requires forall j | 0 <= j < |exts| :: ExtensionShaped(exts[j])
    requires k < |exts|
    ensures StageWith(exts, width)[k] == StagedName(k + 1, width, exts[k])
  {
  }

  /** Two staged names whose indices fit the width are ordered by index. */
  lemma StagedNameOrder(i: nat, j: nat, width: nat, e1: string, e2: string)
    requires i < j && |Digits(j)| <= width
    ensures Less(StagedName(i, width, e1), StagedName(j, width, e2))
  {
    var s, t := Pad(i, width) + e1, Pad(j, width) + e2;
    PadOrder(i, j, width, e1, e2);
    LessCommonPrefix(StagedPrefix, s, t);
  }

  /**
    Each name of line 40 is as long as `image_`, then the index padded to at least four
    digits, then the source's extension. With the round trip of `ParseStagedName` this
    fixes the name: the index is written as `{idx:04d}` writes it.
  */
  predicate StagedLengths(sources: seq<string>, names: seq<string>) {
    && |names| == |sources|
    && forall k | 0 <= k < |names| ::
         |names[k]| == |StagedPrefix| + PadLength(k + 1, IndexWidth) + |Extension(sources[k])|
  }

  /** The staging names of lines 37-42: four-digit minimum padding. */
  function Stage(sources: seq<string>): (names: seq<string>)
    ensures |names| == |sources|
    ensures forall k | 0 <= k < |names| ::
      ParseStagedName(names[k]) == Some((k + 1, Extension(sources[k])))
    ensures StagedLengths(sources, names)
    ensures |sources| <= 9999 ==> StrictlySorted(names)
  {
    var exts := Extensions(sources);
    FourDigitsSuffice(exts);
    StageWith(exts, IndexWidth)
  }

  /** `image_0001` sorts below every other name of line 40, however many files there are. */
  lemma StageFirstLeast(sources: seq<string>)
    ensures forall k | 1 <= k < |Stage(sources)| :: Less(Stage(sources)[0], Stage(sources)[k])
  {
    var exts := Extensions(sources);
    FirstStagedNameLeast(exts, IndexWidth);
    FourDigitsSuffice(exts);
    assert Stage(sources) == StagedNames(exts, IndexWidth);
  }

  lemma FourDigitsSuffice(exts: seq<string>)
    requires forall k | 0 <= k < |exts| :: ExtensionShaped(exts[k])
    ensures |exts| <= 9999 ==> StrictlySorted(StageWith(exts, IndexWidth))
  {
    if |exts| <= 9999 {
      DigitsFitWidth(|exts|, IndexWidth);
      StagedNamesOrdered(exts, IndexWidth);
    }
  }

  /**
    With 10000 or more frames the four-digit minimum stops being a fixed width:
    `image_10000` sorts before `image_1001`, so the staged names are no longer in
    ascending order and re-sorting them scrambles the frames.
  */
  lemma StagingOrderBreaksAbove9999(sources: seq<string>)
    requires |sources| >= 10000
    ensures !Sorted(Stage(sources))
  {
    var exts := Extensions(sources);
    var names := Stage(sources);
    StagedAt(exts, IndexWidth, 9999);
    StagedAt(exts, IndexWidth, 1000);
    StagedNameOverflows(exts[9999], exts[1000]);
    InversionNotSorted(names, 1000, 9999);
  }

  /** `image_10000<e1>` sorts before `image_1001<e2>`: the names differ first at `0` against `1`. */
  lemma StagedNameOverflows(e1: string, e2: string)
    ensures Less(StagedName(10000, IndexWidth, e1), StagedName(1001, IndexWidth, e2))
  {
    PadOfWideIndices();
    var late := StagedName(10000, IndexWidth, e1);
    var early := StagedName(1001, IndexWidth, e2);
    assert late == "image_10000" + e1;
    assert early == "image_1001" + e2;
    assert late[..9] == "image_100" == early[..9];
    LessAtFirstDifference(late, early, 9);
  }

  lemma PadOfWideIndices()
    ensures Pad(10000, IndexWidth) == "10000" && Pad(1001, IndexWidth) == "1001"
  {
    assert Digits(10000) == "10000";
    assert Digits(1001) == "1001";
  }

  /** The width that keeps every index of an `n`-frame job the same length. */
  function WideWidth(n: nat): (w: nat)
    ensures w >= IndexWidth && w >= |Digits(n)|
  {
    if |Digits(n)| < IndexWidth then IndexWidth else |Digits(n)|
  }

  /**
    Staging with the padding widened to the number of digits of the frame count: the
    staged names are ascending for every frame count.
  */
  function WideStage(sources: seq<string>): (names: seq<string>)
    ensures |names| == |sources|
    ensures forall k | 0 <= k < |names| ::
      ParseStagedName(names[k]) == Some((k + 1, Extension(sources[k])))
    ensures StrictlySorted(names)
  {
    var exts := Extensions(sources);
    StagedNamesOrdered(exts, WideWidth(|sources|));
    StageWith(exts, WideWidth(|sources|))
  }

  /** Up to 9999 frames the widened padding is the four-digit padding of line 40. */
  lemma WideStageAgrees(sources: seq<string>)
    ensures WideStage(sources) == Stage(sources) <==> |sources| <= 9999
  {
    if |sources| <= 9999 {
      DigitsFitWidth(|sources|, IndexWidth);
      assert WideWidth(|sources|) == IndexWidth;
    } else {
      StagingOrderBreaksAbove9999(sources);
      StrictlySortedIsSorted(WideStage(sources));
    }
  }

  /** The outcome of `rename_images_in_folder`. */
  datatype Staging =
    | NoImages        // `return []`; no staging folder is made
    | StagingBlocked  // a plain file is named like the staging folder: the first `copy2` raises
    | Staged(sources: seq<string>, names: seq<string>) // sources[k] copied to StagingFolder/names[k]

  /**
    `rename_images_in_folder` over the listing of a leaf folder, every entry of which is
    a plain file. An existing entry named `tmp_img_seq` is therefore a file: `makedirs`
    is skipped because the path exists, and copying into it fails.
  */
  function RenameImages(listing: seq<string>): (r: Staging)
    ensures r.NoImages? <==> forall i | 0 <= i < |listing| :: !IsImageName(listing[i])
    ensures r.StagingBlocked? <==> !r.NoImages? && StagingFolder in listing
    ensures r.Staged? ==> Sorted(r.sources) && multiset(r.sources) == multiset(MatchImages(listing))
    ensures r.Staged? ==> |r.names| == |r.sources| >= 1
    ensures r.Staged? ==> forall k | 0 <= k < |r.names| ::
      ParseStagedName(r.names[k]) == Some((k + 1, Extension(r.sources[k])))
    ensures r.Staged? ==> StagedLengths(r.sources, r.names)
    ensures r.Staged? && |r.sources| <= 9999 ==> StrictlySorted(r.names)
    ensures r.Staged? && |r.sources| >= 10000 ==> !Sorted(r.names)
  {
    MatchesEmptyIffNoImages(listing);
    var files := MatchImages(listing);
    if files == [] then NoImages
    else if StagingFolder in listing then StagingBlocked
    else
      var sorted := SortNames(files);
      var names := Stage(sorted);
      assert |sorted| >= 10000 ==> !Sorted(names) by {
        if |sorted| >= 10000 { StagingOrderBreaksAbove9999(sorted); }
      }
      Staged(sorted, names)
  }

  /** The read-back and the lengths of `StagedLengths` together fix every name of line 40. */
  lemma StagedLengthsFixNames(sources: seq<string>, names: seq<string>)
    requires StagedLengths(sources, names)
    requires forall k | 0 <= k < |names| :: ParseStagedName(names[k]) == Some((k + 1, Extension(sources[k])))
    ensures forall k | 0 <= k < |names| :: names[k] == StagedName(k + 1, IndexWidth, Extension(sources[k]))
  {
    forall k | 0 <= k < |names|
      ensures names[k] == StagedName(k + 1, IndexWidth, Extension(sources[k]))
    {
      StagedNameDetermined(names[k], k + 1, IndexWidth, Extension(sources[k]));
    }
  }

  /** The first image in name order is copied as `image_0001` with its own extension. */
  lemma FirstCopyName(listing: seq<string>)
    ensures var r := RenameImages(listing);
      r.Staged? ==> r.names[0] == "image_0001" + Extension(r.sources[0])
  {
    var r := RenameImages(listing);
    if r.Staged? {
      StagedLengthsFixNames(r.sources, r.names);
      FirstStagedName(Extension(r.sources[0]));
    }
  }

  lemma FirstStagedName(ext: string)
    ensures StagedName(1, IndexWidth, ext) == "image_0001" + ext
  {
    assert Digits(1) == "1";
    assert Zeros(3) == "000";
    assert Pad(1, IndexWidth) == "0001";
  }

  /** Which listing order the directory returned does not matter. */
  lemma RenameIgnoresListingOrder(a: seq<string>, b: seq<string>)
    requires multiset(a) == multiset(b)
    ensures RenameImages(a) == RenameImages(b)
  {
    var ma, mb := MatchImages(a), MatchImages(b);
    assert multiset(ma) == multiset(mb);
    assert (StagingFolder in a) == (StagingFolder in multiset(a)) == (StagingFolder in b);
    SortIgnoresListingOrder(ma, mb);
    assert ma == [] <==> mb == [] by {
      assert ma == [] <==> |multiset(ma)| == 0;
      assert mb == [] <==> |multiset(mb)| == 0;
    }
  }

}

=== FILE: decimal.dfy ===
/**
  Decimal rendering of frame indices: `str(n)` for a natural number and the format
  `{n:0wd}`, which pads with zeros to AT LEAST `w` digits and never truncates.
*/
module Decimal {
  import Text

  predicate IsDigit(c: char) {
    '0' <= c <= '9'
  }

  predicate AllDigits(s: string) {
    forall i | 0 <= i < |s| :: IsDigit(s[i])
  }

  function DigitValue(c: char): nat
    requires IsDigit(c)
  {
    c as int - '0' as int
  }

  function DigitChar(d: nat): (c: char)
    requires d < 10
    ensures IsDigit(c) && DigitValue(c) == d
  {
    ('0' as int + d) as char
  }

  function Pow10(k: nat): (p: nat)
    ensures p >= 1
  {
    if k == 0 then 1 else 10 * Pow10(k - 1)
  }

  /** The number a string of decimal digits denotes (leading zeros allowed). */
  function Value(s: string): nat
    requires AllDigits(s)
  {
    if s == [] then 0 else 10 * Value(s[..|s| - 1]) + DigitValue(s[|s| - 1])
  }

  /** Digit strings of one length are told apart by their value. */
  lemma {:induction false} SameLengthSameValue(a: string, b: string)
    requires AllDigits(a) && AllDigits(b) && |a| == |b|
    requires Value(a) == Value(b)
    ensures a == b
  {
    if a != [] {
      var n := |a| - 1;
      var da, db := DigitValue(a[n]), DigitValue(b[n]);
      var ra, rb := Value(a[..n]), Value(b[..n]);
      assert Value(a) == 10 * ra + da && Value(b) == 10 * rb + db;
      LastDigitSplit(ra, da, rb, db);
      assert a[n] == b[n];
      SameLengthSameValue(a[..n], b[..n]);
      forall i | 0 <= i < n
        ensures a[i] == b[i]
      {
        assert a[i] == a[..n][i] && b[i] == b[..n][i];
      }
    }
  }

  /** A number splits one way into its tens and its last digit. */
  lemma LastDigitSplit(ra: nat, da: nat, rb: nat, db: nat)
    requires da < 10 && db < 10 && 10 * ra + da == 10 * rb + db
    ensures ra == rb && da == db
  {
    assert 10 * ra < 10 * (rb + 1) && 10 * rb < 10 * (ra + 1);
  }

  /** `str(n)`: the shortest decimal rendering of `n`, with no leading zero. */
  function Digits(n: nat): (r: string)
    ensures |r| >= 1 && AllDigits(r)
    ensures |r| == 1 || r[0] != '0'
    ensures Value(r) == n
  {
    if n < 10 then [DigitChar(n)]
    else
      var r := Digits(n / 10) + [DigitChar(n % 10)];
      assert r[..|r| - 1] == Digits(n / 10);
      r
  }

  function Zeros(k: nat): (z: string)
    ensures |z| == k && AllDigits(z)
  {
    seq(k, _ => '0')
  }

  /** The number of digits of `n` padded to at least `w`. */
  function PadLength(n: nat, w: nat): nat {
    if |Digits(n)| < w then w else |Digits(n)|
  }

  /** `f"{n:0{w}d}"`: zero-padded to at least `w` digits. */
  function Pad(n: nat, w: nat): (r: string)
    ensures AllDigits(r)
    ensures |r| == PadLength(n, w)
    ensures Value(r) == n
  {
    var d := Digits(n);
    if |d| < w then
      LeadingZeros(w - |d|, d);
      Zeros(w - |d|) + d
    else d
  }

  /** Leading zeros do not change the value. */
  lemma {:induction false} LeadingZeros(k: nat, s: string)
    requires AllDigits(s)
    ensures AllDigits(Zeros(k) + s)
    ensures Value(Zeros(k) + s) == Value(s)
    decreases |s|, k
  {
    var z := Zeros(k) + s;
    if s == [] {
      assert z == Zeros(k);
      if k > 0 {
        assert z[..|z| - 1] == Zeros(k - 1) + [];
        LeadingZeros(k - 1, []);
      }
    } else {
      assert z[..|z| - 1] == Zeros(k) + s[..|s| - 1];
      LeadingZeros(k, s[..|s| - 1]);
    }
  }

  lemma {:induction false} ValueBound(s: string)
    requires AllDigits(s)
    ensures Value(s) < Pow10(|s|)
  {
    if s != [] {
      ValueBound(s[..|s| - 1]);
    }
  }

  /** The value read from the most significant digit down. */
  lemma {:induction false} ValueFront(s: string)
    requires AllDigits(s) && |s| >= 1
    ensures Value(s) == DigitValue(s[0]) * Pow10(|s| - 1) + Value(s[1..])
  {
    if |s| == 1 {
      assert s[..0] == [] && s[1..] == [];
    } else {
      var init := s[..|s| - 1];
      ValueFront(init);
      assert init[0] == s[0];
      assert s[1..][..|s[1..]| - 1] == init[1..];
      assert Value(s[1..]) == 10 * Value(init[1..]) + DigitValue(s[|s| - 1]);
      assert Pow10(|s| - 1) == 10 * Pow10(|s| - 2);
    }
  }

  /** Arithmetic core of comparing two numbers by their leading digit. */
  lemma LeadingDigitArith(da: nat, ra: nat, db: nat, rb: nat, p: nat)
    requires ra < p && rb < p
    ensures da > db ==> da * p + ra > db * p + rb
  {
    if da > db {
      assert da * p >= (db + 1) * p == db * p + p;
    }
  }

  /** Of two equally long digit strings, the smaller value has the smaller leading digit. */
  lemma LeadingDigitOrder(a: string, b: string)
    requires AllDigits(a) && AllDigits(b) && |a| == |b| >= 1
    requires Value(a) < Value(b)
    ensures DigitValue(a[0]) <= DigitValue(b[0])
    ensures a[0] == b[0] ==> Value(a[1..]) < Value(b[1..])
  {
    ValueFront(a);
    ValueFront(b);
    ValueBound(a[1..]);
    ValueBound(b[1..]);
    LeadingDigitArith(DigitValue(a[0]), Value(a[1..]), DigitValue(b[0]), Value(b[1..]), Pow10(|a| - 1));
  }

  /**
    Equally long digit strings are ordered as strings the way their values are ordered,
    whatever follows them.
  */
  lemma {:induction false} SameLengthOrder(a: string, b: string, x: string, y: string)
    requires AllDigits(a) && AllDigits(b) && |a| == |b|
    requires Value(a) < Value(b)
    ensures Text.Less(a + x, b + y)
  {
    if |a| > 0 {
      LeadingDigitOrder(a, b);
      assert (a + x)[0] == a[0] && (b + y)[0] == b[0];
      if a[0] == b[0] {
        SameLengthOrder(a[1..], b[1..], x, y);
        assert (a + x)[1..] == a[1..] + x;
        assert (b + y)[1..] == b[1..] + y;
      }
    }
  }

  /** Numbers below `10^k` (k >= 1) need at most `k` digits. */
  lemma {:induction false} DigitsFitWidth(n: nat, k: nat)
    requires k >= 1 && n < Pow10(k)
    ensures |Digits(n)| <= k
  {
    if n >= 10 {
      assert k >= 2;
      assert n / 10 < Pow10(k - 1);
      DigitsFitWidth(n / 10, k - 1);
    }
  }

  /** A larger number never has fewer digits. */
  lemma {:induction false} DigitsMonotone(i: nat, j: nat)
    requires i <= j
    ensures |Digits(i)| <= |Digits(j)|
  {
    if i >= 10 {
      DigitsMonotone(i / 10, j / 10);
    }
  }

  /**
    With a width of at least two, index 1 pads to a string below the padding of every
    larger index, whatever follows them: within the width by value, and past it because
    a wider index starts with a non-zero digit where the padding of 1 has a `0`.
  */
  lemma PadOneLeast(j: nat, w: nat, x: string, y: string)
    requires 1 < j && w >= 2
    ensures Text.Less(Pad(1, w) + x, Pad(j, w) + y)
  {
    if |Digits(j)| <= w {
      PadOrder(1, j, w, x, y);
    } else {
      var a, b := Pad(1, w) + x, Pad(j, w) + y;
      assert Digits(1) == [DigitChar(1)];
      assert Pad(1, w)[0] == '0';
      assert a[0] == '0' && b[0] == Digits(j)[0];
      Text.LessAtFirstDifference(a, b, 0);
    }
  }

  /**
    Zero-padded indices below the width limit compare as strings the way they compare as
    numbers, whatever follows them.
  */
  lemma PadOrder(i: nat, j: nat, w: nat, x: string, y: string)
    requires i < j && |Digits(j)| <= w
    ensures Text.Less(Pad(i, w) + x, Pad(j, w) + y)
  {
    DigitsMonotone(i, j);
    SameLengthOrder(Pad(i, w), Pad(j, w), x, y);
  }

}

=== FILE: encoder.dfy ===
/**
  The sequence encoder, `generate_mp4_from_images`: list the staging folder, keep the
  `image_` files in name order, size the video by the first frame, negotiate a codec,
  then read, enhance and write every frame, reporting progress, and remove the staging
  folder. Reading a frame (`cv2.imread`) and the contrast enhancement are parameters.
*/
module Encoder {
  import opened Wrappers
  import opened Text
  import opened Sorting
  import opened Collator
  import opened Codecs
  import opened Progress

  /** A decoded frame: its shape and its raster, which the model never inspects. */
  datatype Frame = Frame(height: nat, width: nat, pixels: seq<int>)

  /** An output video as written to `folder/name`. */
  datatype Video = Video(
    folder: seq<string>,
    name: string,
    codec: Codec,
    frameRate: nat,
    width: nat,
    height: nat,
    frames: seq<Frame>)

  /** How `generate_mp4_from_images` ends. */
  datatype EncodeOutcome =
    | NoStagingFolder                                   // line 56: returns, nothing to clean
    | NoStagedImages                                    // line 61: returns, staging left behind
    | FirstFrameUnreadable                              // line 64: `None.shape` raises
    | NoWriter(attempted: seq<Codec>, warned: seq<Codec>) // line 91: returns, staging left behind
    | FrameUnreadable(index: nat, video: Video, reports: seq<nat>)
        // line 105: `cvtColor(None)` raises at frame `index`; the unreleased video holds the
        // frames before it, and the staging folder is left behind
    | Encoded(video: Video, reports: seq<nat>)          // line 128: staging removed
  {
    /** The call ends in an exception rather than a return. */
    predicate Raised() {
      FirstFrameUnreadable? || FrameUnreadable?
    }
  }

  /** `[f for f in listing if f.startswith("image_")]`. */
  function KeepStaged(listing: seq<string>): (r: seq<string>)
    ensures forall x :: multiset(r)[x] == if StartsWith(x, StagedPrefix) then multiset(listing)[x] else 0
  {
    if listing == [] then []
    else
      assert listing == [listing[0]] + listing[1..];
      (if StartsWith(listing[0], StagedPrefix) then [listing[0]] else []) + KeepStaged(listing[1..])
  }

  /** A listing whose every name carries the prefix passes the filter unchanged. */
  lemma {:induction false} KeepStagedKeepsPrefixed(listing: seq<string>)
    requires forall i | 0 <= i < |listing| :: StartsWith(listing[i], StagedPrefix)
    ensures KeepStaged(listing) == listing
  {
    if listing != [] {
      KeepStagedKeepsPrefixed(listing[1..]);
      assert listing == [listing[0]] + listing[1..];
    }
  }

  /** The frame order of line 59: the staged names sorted as strings. */
  function FrameOrder(listing: seq<string>): seq<string> {
    SortNames(KeepStaged(listing))
  }

  /** The frame order, given what the staging folder holds (`None` when it does not exist). */
  function StagedFrames(staging: Option<seq<string>>): seq<string> {
    if staging.None? then [] else FrameOrder(staging.value)
  }

  /**
    Whatever order the directory lists a staging folder in, the frame loop visits the
    files named as line 40 names them in staging order exactly when there are at most
    9999 of them.
  */
  lemma FrameOrderMatchesStaging(sources: seq<string>, listing: seq<string>)
    requires multiset(listing) == multiset(Stage(sources))
    ensures FrameOrder(listing) == Stage(sources) <==> |sources| <= 9999
  {
    var names := Stage(sources);
    StagedListingKept(names, listing);
    SortIgnoresListingOrder(listing, names);
    if |sources| <= 9999 {
      SortOfSorted(names);
    } else {
      StagingOrderBreaksAbove9999(sources);
    }
  }

  /** With the widened padding, the frame loop visits the staged files in staging order, whatever their number. */
  lemma WideFrameOrderMatchesStaging(sources: seq<string>, listing: seq<string>)
    requires multiset(listing) == multiset(WideStage(sources))
    ensures FrameOrder(listing) == WideStage(sources)
  {
    var names := WideStage(sources);
    StagedListingKept(names, listing);
    SortIgnoresListingOrder(listing, names);
    StrictlySortedIsSorted(names);
    SortOfSorted(names);
  }

  /** A name that parses as a staged name carries the prefix the frame loop filters on. */
  lemma StagedNamesPrefixed(names: seq<string>)
    requires forall k | 0 <= k < |names| :: ParseStagedName(names[k]).Some?
    ensures forall k | 0 <= k < |names| :: StartsWith(names[k], StagedPrefix)
  {
  }

  /** A listing of a staging folder passes the prefix filter unchanged. */
  lemma StagedListingKept(names: seq<string>, listing: seq<string>)
    requires forall k | 0 <= k < |names| :: ParseStagedName(names[k]).Some?
    requires multiset(listing) == multiset(names)
    ensures KeepStaged(listing) == listing
  {
    StagedNamesPrefixed(names);
    forall i | 0 <= i < |listing|
      ensures StartsWith(listing[i], StagedPrefix)
    {
      assert listing[i] in multiset(names);
      assert listing[i] in names;
    }
    KeepStagedKeepsPrefixed(listing);
  }

  /** What the frame loop produced: the frames written and the reports printed, up to the end or an unreadable image. */
  datatype FrameRun =
    | Written(frames: seq<Frame>, reports: seq<nat>)
    | Unreadable(index: nat, frames: seq<Frame>, reports: seq<nat>)

  /**
    The loop of lines 100-118 over `images`, whose first element has 1-based index
    `first`, in a job of `total` frames: each frame is read, enhanced and written, and
    progress is reported after the frames the cadence selects. An unreadable image ends
    the loop with the frames before it already written.
  */
  function WriteFrames(images: seq<string>, first: nat, total: nat,
                       read: string -> Option<Frame>, enhance: Frame -> Frame): (r: FrameRun)
    ensures r.Written? <==> forall k | 0 <= k < |images| :: read(images[k]).Some?
    ensures |r.frames| == if r.Written? then |images| else r.index - first
    ensures |r.frames| <= |images|
    ensures forall k | 0 <= k < |r.frames| :: read(images[k]).Some? && r.frames[k] == enhance(read(images[k]).value)
    ensures r.Unreadable? ==> first <= r.index < first + |images| && read(images[r.index - first]).None?
  {
    if images == [] then Written([], [])
    else match read(images[0])
      case None => Unreadable(first, [], [])
      case Some(f) =>
        var rest := WriteFrames(images[1..], first + 1, total, read, enhance);
        var reports := (if ReportsAt(first, total) then [first] else []) + rest.reports;
        assert forall k | 1 <= k < |images| :: images[k] == images[1..][k - 1];
        if rest.Unreadable? then Unreadable(rest.index, [enhance(f)] + rest.frames, reports)
        else Written([enhance(f)] + rest.frames, reports)
  }

  /** A run reports, in increasing order, after exactly the frames it wrote that the cadence selects. */
  lemma WrittenReportsOnCadence(images: seq<string>, first: nat, total: nat,
                                read: string -> Option<Frame>, enhance: Frame -> Frame)
    ensures var r := WriteFrames(images, first, total, read, enhance);
      && Increasing(r.reports)
      && forall x :: x in r.reports <==> first <= x < first + |r.frames| && ReportsAt(x, total)
  {
    WrittenReportsOnCadenceOnly(images, first, total, read, enhance);
    WrittenReportsIncrease(images, first, total, read, enhance);
  }

  lemma {:induction false} WrittenReportsOnCadenceOnly(images: seq<string>, first: nat, total: nat,
                                                       read: string -> Option<Frame>, enhance: Frame -> Frame)
    ensures forall x :: x in WriteFrames(images, first, total, read, enhance).reports <==>
      first <= x < first + |WriteFrames(images, first, total, read, enhance).frames| && ReportsAt(x, total)
  {
    if images != [] && read(images[0]).Some? {
      var rest := WriteFrames(images[1..], first + 1, total, read, enhance);
      WrittenReportsOnCadenceOnly(images[1..], first + 1, total, read, enhance);
      var r := WriteFrames(images, first, total, read, enhance);
      assert r.reports == (if ReportsAt(first, total) then [first] else []) + rest.reports;
      assert |r.frames| == 1 + |rest.frames|;
    }
  }

  lemma {:induction false} WrittenReportsIncrease(images: seq<string>, first: nat, total: nat,
                                                  read: string -> Option<Frame>, enhance: Frame -> Frame)
    ensures Increasing(WriteFrames(images, first, total, read, enhance).reports)
    ensures forall x | x in WriteFrames(images, first, total, read, enhance).reports :: x >= first
  {
    if images != [] && read(images[0]).Some? {
      var rest := WriteFrames(images[1..], first + 1, total, read, enhance);
      WrittenReportsIncrease(images[1..], first + 1, total, read, enhance);
      ReportStep(first, total, rest.reports);
      assert WriteFrames(images, first, total, read, enhance).reports ==
             (if ReportsAt(first, total) then [first] else []) + rest.reports;
    }
  }

  /** Reporting frame `first`, or not, in front of the later reports keeps the reports increasing. */
  lemma ReportStep(first: nat, total: nat, rest: seq<nat>)
    requires Increasing(rest) && forall x | x in rest :: x >= first + 1
    ensures var reports := (if ReportsAt(first, total) then [first] else []) + rest;
      Increasing(reports) && forall x | x in reports :: x >= first
  {
    assert forall j | 0 <= j < |rest| :: rest[j] in rest;
    if ReportsAt(first, total) {
      IncreasingCons(first, rest);
    } else {
      assert [] + rest == rest;
    }
  }

  /** A complete run of the frame loop reports exactly on the cadence of `ProgressPoints`. */
  lemma FullRunReportsOnCadence(images: seq<string>, read: string -> Option<Frame>, enhance: Frame -> Frame)
    requires WriteFrames(images, 1, |images|, read, enhance).Written?
    ensures WriteFrames(images, 1, |images|, read, enhance).reports == ProgressPoints(|images|)
  {
    WrittenReportsOnCadence(images, 1, |images|, read, enhance);
    IncreasingUnique(WriteFrames(images, 1, |images|, read, enhance).reports, ProgressPoints(|images|));
  }

  /**
    `v` is what the writer for `folder/outputName` holds once frames 1..n of `images` are
    written: the codec of the first candidate that opens, the first frame's size, and the
    first n images, each enhanced, in order.
  */
  predicate HoldsFrames(v: Video, folder: seq<string>, outputName: string, frameRate: nat,
                        images: seq<string>, n: nat, read: string -> Option<Frame>,
                        probe: Codec -> Probe, enhance: Frame -> Frame) {
    && v.folder == folder && v.name == outputName && v.frameRate == frameRate
    && FirstOpening(Candidates, probe) < |Candidates| && v.codec == Candidates[FirstOpening(Candidates, probe)]
    && images != [] && read(images[0]).Some?
    && v.width == read(images[0]).value.width && v.height == read(images[0]).value.height
    && n <= |images| && |v.frames| == n
    && forall k | 0 <= k < n :: read(images[k]).Some? && v.frames[k] == enhance(read(images[k]).value)
  }

  /** `reports` are, in increasing order, the frames among 1..n that the cadence of a `total`-frame job selects. */
  ghost predicate ReportedUpTo(reports: seq<nat>, n: nat, total: nat) {
    Increasing(reports) && forall x :: x in reports <==> 1 <= x <= n && ReportsAt(x, total)
  }

  /**
    `generate_mp4_from_images(folder, frame_rate, output_name)` where `staging` is the
    listing of the staging folder (`None` if it does not exist), `read` decodes a staged
    file, `probe` tells how opening a writer with a candidate goes, and `enhance` is the
    contrast enhancement of lines 105-110.
  */
  function Generate(folder: seq<string>, frameRate: nat, outputName: string,
                    staging: Option<seq<string>>, read: string -> Option<Frame>,
                    probe: Codec -> Probe, enhance: Frame -> Frame): (r: EncodeOutcome)
    ensures r.NoStagingFolder? <==> staging.None?
    ensures r.NoStagedImages? <==> staging.Some? && StagedFrames(staging) == []
    ensures r.FirstFrameUnreadable? <==>
      staging.Some? && StagedFrames(staging) != [] && read(StagedFrames(staging)[0]).None?
    ensures r.NoWriter? <==>
      && staging.Some? && StagedFrames(staging) != [] && read(StagedFrames(staging)[0]).Some?
      && forall i | 0 <= i < |Candidates| :: probe(Candidates[i]) != Opens
    ensures r.NoWriter? ==> r.attempted == Candidates
    ensures r.FrameUnreadable? <==>
      && staging.Some? && StagedFrames(staging) != [] && read(StagedFrames(staging)[0]).Some?
      && (exists i | 0 <= i < |Candidates| :: probe(Candidates[i]) == Opens)
      && (exists k | 0 <= k < |StagedFrames(staging)| :: read(StagedFrames(staging)[k]).None?)
    ensures r.FrameUnreadable? ==> var images := StagedFrames(staging);
      && 1 <= r.index <= |images| && read(images[r.index - 1]).None?
      && HoldsFrames(r.video, folder, outputName, frameRate, images, r.index - 1, read, probe, enhance)
      && ReportedUpTo(r.reports, r.index - 1, |images|)
    ensures r.Encoded? <==>
      && staging.Some? && StagedFrames(staging) != []
      && (forall k | 0 <= k < |StagedFrames(staging)| :: read(StagedFrames(staging)[k]).Some?)
      && (exists i | 0 <= i < |Candidates| :: probe(Candidates[i]) == Opens)
    ensures r.Encoded? ==> var images := StagedFrames(staging);
      && HoldsFrames(r.video, folder, outputName, frameRate, images, |images|, read, probe, enhance)
      && r.reports == ProgressPoints(|images|)
  {
    if staging.None? then NoStagingFolder
    else GenerateFrom(folder, frameRate, outputName, FrameOrder(staging.value), read, probe, enhance)
  }

  /** Lines 58-128, once the staging folder has been listed and filtered into the frame list `images`. */
  function GenerateFrom(folder: seq<string>, frameRate: nat, outputName: string, images: seq<string>,
                        read: string -> Option<Frame>, probe: Codec -> Probe, enhance: Frame -> Frame): (r: EncodeOutcome)
    ensures !r.NoStagingFolder?
    ensures r.NoStagedImages? <==> images == []
    ensures r.FirstFrameUnreadable? <==> images != [] && read(images[0]).None?
    ensures r.NoWriter? <==>
      && images != [] && read(images[0]).Some?
      && forall i | 0 <= i < |Candidates| :: probe(Candidates[i]) != Opens
    ensures r.NoWriter? ==> r.attempted == Candidates
    ensures r.FrameUnreadable? <==>
      && images != [] && read(images[0]).Some?
      && (exists i | 0 <= i < |Candidates| :: probe(Candidates[i]) == Opens)
      && (exists k | 0 <= k < |images| :: read(images[k]).None?)
    ensures r.FrameUnreadable? ==>
      && 1 <= r.index <= |images| && read(images[r.index - 1]).None?
      && HoldsFrames(r.video, folder, outputName, frameRate, images, r.index - 1, read, probe, enhance)
      && ReportedUpTo(r.reports, r.index - 1, |images|)
    ensures r.Encoded? <==>
      && images != []
      && (forall k | 0 <= k < |images| :: read(images[k]).Some?)
      && (exists i | 0 <= i < |Candidates| :: probe(Candidates[i]) == Opens)
    ensures r.Encoded? ==>
      && HoldsFrames(r.video, folder, outputName, frameRate, images, |images|, read, probe, enhance)
      && r.reports == ProgressPoints(|images|)
  {
    if images == [] then NoStagedImages
    else match read(images[0])
      case None => FirstFrameUnreadable
      case Some(firstFrame) => Encode(folder, frameRate, outputName, images, firstFrame, read, probe, enhance)
  }

  /**
    Lines 67-128, once the first frame `firstFrame` of the non-empty frame list `images`
    has been read: negotiate a writer, then write every frame.
  */
  function Encode(folder: seq<string>, frameRate: nat, outputName: string, images: seq<string>, firstFrame: Frame,
                  read: string -> Option<Frame>, probe: Codec -> Probe, enhance: Frame -> Frame): (r: EncodeOutcome)
    requires images != [] && read(images[0]) == Some(firstFrame)
    ensures r.NoWriter? || r.FrameUnreadable? || r.Encoded?
    ensures r.NoWriter? <==> forall i | 0 <= i < |Candidates| :: probe(Candidates[i]) != Opens
    ensures r.NoWriter? ==> r.attempted == Candidates
    ensures r.FrameUnreadable? <==>
      && (exists i | 0 <= i < |Candidates| :: probe(Candidates[i]) == Opens)
      && (exists k | 0 <= k < |images| :: read(images[k]).None?)
    ensures r.FrameUnreadable? ==>
      && 1 <= r.index <= |images| && read(images[r.index - 1]).None?
      && HoldsFrames(r.video, folder, outputName, frameRate, images, r.index - 1, read, probe, enhance)
      && ReportedUpTo(r.reports, r.index - 1, |images|)
    ensures r.Encoded? <==>
      && (forall k | 0 <= k < |images| :: read(images[k]).Some?)
      && (exists i | 0 <= i < |Candidates| :: probe(Candidates[i]) == Opens)
    ensures r.Encoded? ==>
      && HoldsFrames(r.video, folder, outputName, frameRate, images, |images|, read, probe, enhance)
      && r.reports == ProgressPoints(|images|)
  {
    var n := Negotiate(Candidates, probe);
    NegotiateStopsAtFirstOpening(Candidates, probe);
    NegotiateOutcome(Candidates, probe);
    if n.chosen.None? then NoWriter(n.attempted, n.warned)
    else
      var run := WriteFrames(images, 1, |images|, read, enhance);
      WrittenReportsOnCadence(images, 1, |images|, read, enhance);
      var video := Video(folder, outputName, n.chosen.value, frameRate, firstFrame.width, firstFrame.height, run.frames);
      if run.Unreadable? then FrameUnreadable(run.index, video, run.reports)
      else
        FullRunReportsOnCadence(images, read, enhance);
        Encoded(video, run.reports)
  }

}

=== FILE: progress.dfy ===
/**
  The progress cadence of the frame loop: a progress line is printed after frame `i`
  (1-based) of `total` exactly when `i % 10 == 0 or i == total`.
*/
module Progress {

  predicate ReportsAt(i: nat, total: nat) {
    i % 10 == 0 || i == total
  }

  predicate Increasing(s: seq<nat>) {
    forall i, j | 0 <= i < j < |s| :: s[i] < s[j]
  }

  /** Every tenth frame. */
  function Tens(m: nat): (r: seq<nat>)
    ensures |r| == m
    ensures forall j | 0 <= j < m :: r[j] == 10 * (j + 1)
  {
    seq(m, j requires 0 <= j < m => 10 * (j + 1))
  }

  /** The frames after which a job with `total` frames reports progress. */
  function ProgressPoints(total: nat): (r: seq<nat>)
    ensures forall x :: x in r <==> 1 <= x <= total && ReportsAt(x, total)
    ensures Increasing(r)
    ensures |r| == (total + 9) / 10
  {
    var m := total / 10;
    var r := Tens(m) + (if total % 10 == 0 then [] else [total]);
    forall x
      ensures x in r <==> 1 <= x <= total && ReportsAt(x, total)
    {
      if 1 <= x <= total && x % 10 == 0 {
        assert r[x / 10 - 1] == x;
      }
    }
    r
  }

  /**
    A job reports at its last frame, its first report comes within ten frames, and
    consecutive reports are at most ten frames apart.
  */
  lemma ProgressSpacing(total: nat)
    ensures var r := ProgressPoints(total);
      && (total >= 1 ==> |r| >= 1 && r[|r| - 1] == total)
      && (|r| >= 1 ==> r[0] <= 10)
      && (forall j | 0 <= j < |r| - 1 :: r[j + 1] - r[j] <= 10)
  {
    var m := total / 10;
    assert ProgressPoints(total) == Tens(m) + (if total % 10 == 0 then [] else [total]);
  }

  /** Putting a value below every element in front of an increasing sequence keeps it increasing. */
  lemma IncreasingCons(x: nat, s: seq<nat>)
    requires Increasing(s) && forall j | 0 <= j < |s| :: x < s[j]
    ensures Increasing([x] + s)
  {
    var t := [x] + s;
    forall i, j | 0 <= i < j < |t|
      ensures t[i] < t[j]
    {
      assert t[j] == s[j - 1];
      if i > 0 {
        assert t[i] == s[i - 1];
      }
    }
  }

  lemma HeadIsMinimum(s: seq<nat>, x: nat)
    requires Increasing(s) && x in s
    ensures s[0] <= x
    ensures x in s[1..] <==> x != s[0]
  {
    var i :| 0 <= i < |s| && s[i] == x;
    if i > 0 {
      assert s[1..][i - 1] == x;
    }
  }

  /** Two increasing sequences with the same elements are equal. */
  lemma {:induction false} IncreasingUnique(a: seq<nat>, b: seq<nat>)
    requires Increasing(a) && Increasing(b)
    requires forall x :: x in a <==> x in b
    ensures a == b
  {
    assert a != [] ==> a[0] in b;
    assert b != [] ==> b[0] in a;
    if a != [] && b != [] {
      HeadIsMinimum(a, b[0]);
      HeadIsMinimum(b, a[0]);
      forall x
        ensures x in a[1..] <==> x in b[1..]
      {
        if x in a[1..] || x in b[1..] {
          HeadIsMinimum(a, x);
          HeadIsMinimum(b, x);
        }
      }
      IncreasingUnique(a[1..], b[1..]);
      assert a == [a[0]] + a[1..] && b == [b[0]] + b[1..];
    }
  }

}

=== FILE: sorting.dfy ===
/**
  `list.sort()` / `sorted()` on a list of file names. The source only relies on the result
  being the ascending arrangement of its input, which is unique; the model computes it by
  insertion and proves both that it is sorted and that it is a permutation.
*/
module Sorting {
  import opened Text

  predicate Sorted(s: seq<string>) {
    forall i, j | 0 <= i < j < |s| :: LessEq(s[i], s[j])
  }

  /** Strictly ascending: sorted and free of repeats. */
  predicate StrictlySorted(s: seq<string>) {
    forall i, j | 0 <= i < j < |s| :: Less(s[i], s[j])
  }

  lemma LowerBoundOfMultiset(x: string, s: seq<string>, extra: string, r: seq<string>)
    requires forall j | 0 <= j < |s| :: LessEq(x, s[j])
    requires LessEq(x, extra)
    requires multiset(r) == multiset(s) + multiset{extra}
    ensures forall j | 0 <= j < |r| :: LessEq(x, r[j])
  {
    forall j | 0 <= j < |r|
      ensures LessEq(x, r[j])
    {
      assert r[j] in multiset(r);
      if r[j] != extra {
        assert r[j] in multiset(s);
        var k :| 0 <= k < |s| && s[k] == r[j];
      }
    }
  }

  function Insert(x: string, s: seq<string>): (r: seq<string>)
    requires Sorted(s)
    ensures Sorted(r)
    ensures multiset(r) == multiset(s) + multiset{x}
  {
    if s == [] then [x]
    else if LessEq(x, s[0]) then
      (forall j | 0 <= j < |s| ensures LessEq(x, s[j]) { LessEqTransitive(x, s[0], s[j]); }
       assert s == [s[0]] + s[1..];
       [x] + s)
    else
      var rest := Insert(x, s[1..]);
      LessTotal(x, s[0]);
      assert s == [s[0]] + s[1..];
      LowerBoundOfMultiset(s[0], s[1..], x, rest);
      [s[0]] + rest
  }

  /** The ascending arrangement of `s`. */
  function SortNames(s: seq<string>): (r: seq<string>)
    ensures Sorted(r)
    ensures multiset(r) == multiset(s)
    ensures |r| == |s|
  {
    if s == [] then []
    else
      assert s == [s[0]] + s[1..];
      Insert(s[0], SortNames(s[1..]))
  }

  /** The head of a sorted sequence is below every element. */
  lemma HeadIsLeast(s: seq<string>, x: string)
    requires Sorted(s) && x in multiset(s)
    ensures LessEq(s[0], x)
  {
    var i :| 0 <= i < |s| && s[i] == x;
  }

  lemma TailMultiset(s: seq<string>)
    requires s != []
    ensures multiset(s[1..]) == multiset(s) - multiset{s[0]}
  {
    assert s == [s[0]] + s[1..];
  }

  /** A sorted arrangement of a multiset of names is unique. */
  lemma {:induction false} SortedUnique(a: seq<string>, b: seq<string>)
    requires Sorted(a) && Sorted(b)
    requires multiset(a) == multiset(b)
    ensures a == b
  {
    if a == [] {
      assert |multiset(b)| == 0;
    } else {
      assert a[0] in multiset(a) && b[0] in multiset(b);
      HeadIsLeast(b, a[0]);
      HeadIsLeast(a, b[0]);
      LessEqAntisymmetric(a[0], b[0]);
      TailMultiset(a);
      TailMultiset(b);
      SortedUnique(a[1..], b[1..]);
      assert a == [a[0]] + a[1..] && b == [b[0]] + b[1..];
    }
  }

  /** Sorting does not depend on the order the names were listed in. */
  lemma SortIgnoresListingOrder(a: seq<string>, b: seq<string>)
    requires multiset(a) == multiset(b)
    ensures SortNames(a) == SortNames(b)
  {
    SortedUnique(SortNames(a), SortNames(b));
  }

  /** Sorting an already ascending listing gives it back unchanged. */
  lemma SortOfSorted(s: seq<string>)
    requires Sorted(s)
    ensures SortNames(s) == s
  {
    SortedUnique(SortNames(s), s);
  }

  lemma StrictlySortedIsSorted(s: seq<string>)
    requires StrictlySorted(s)
    ensures Sorted(s)
  {
  }

  /** A sequence with a strictly descending pair is not sorted. */
  lemma InversionNotSorted(s: seq<string>, i: nat, j: nat)
    requires i < j < |s|
    requires Less(s[j], s[i])
    ensures !Sorted(s)
  {
    if Sorted(s) {
      assert LessEq(s[i], s[j]);
      if s[i] == s[j] {
        LessIrreflexive(s[j]);
      } else {
        LessAsymmetric(s[j], s[i]);
      }
    }
  }

}

=== FILE: text.dfy ===
/**
  Python string operations the frame pipeline relies on: the ordering of `str` values
  (code point by code point, a proper prefix first), `str.lower` restricted to ASCII,
  and `str.startswith` / `str.endswith`.
*/
module Text {

  /** `a < b` on Python strings. */
  predicate Less(a: string, b: string)
    decreases |a|
  {
    if |b| == 0 then false
    else if |a| == 0 then true
    else if a[0] != b[0] then a[0] < b[0]
    else Less(a[1..], b[1..])
  }

  /** `a <= b` on Python strings. */
  predicate LessEq(a: string, b: string) {
    a == b || Less(a, b)
  }

  lemma {:induction false} LessIrreflexive(a: string)
    ensures !Less(a, a)
  {
    if |a| > 0 {
      LessIrreflexive(a[1..]);
    }
  }

  lemma {:induction false} LessAsymmetric(a: string, b: string)
    requires Less(a, b)
    ensures !Less(b, a)
  {
    if |a| > 0 && a[0] == b[0] {
      LessAsymmetric(a[1..], b[1..]);
    }
  }

  lemma {:induction false} LessTransitive(a: string, b: string, c: string)
    requires Less(a, b) && Less(b, c)
    ensures Less(a, c)
  {
    if |a| > 0 && a[0] == b[0] && b[0] == c[0] {
      LessTransitive(a[1..], b[1..], c[1..]);
    }
  }

  lemma {:induction false} LessTotal(a: string, b: string)
    requires a != b
    ensures Less(a, b) || Less(b, a)
  {
    if |a| > 0 && |b| > 0 && a[0] == b[0] {
      assert a == [a[0]] + a[1..] && b == [b[0]] + b[1..];
      LessTotal(a[1..], b[1..]);
    }
  }

  lemma LessEqTransitive(a: string, b: string, c: string)
    requires LessEq(a, b) && LessEq(b, c)
    ensures LessEq(a, c)
  {
    if a != b && b != c {
      LessTransitive(a, b, c);
    }
  }

  lemma LessEqAntisymmetric(a: string, b: string)
    requires LessEq(a, b) && LessEq(b, a)
    ensures a == b
  {
    if a != b {
      LessAsymmetric(a, b);
    }
  }

  /** Two strings that agree up to position `k` and differ there are ordered by that character. */
  lemma {:induction false} LessAtFirstDifference(a: string, b: string, k: nat)
    requires k < |a| && k < |b|
    requires a[..k] == b[..k] && a[k] < b[k]
    ensures Less(a, b)
  {
    if k > 0 {
      assert a[0] == a[..k][0] == b[..k][0] == b[0];
      assert a[1..][..k - 1] == a[..k][1..] == b[..k][1..] == b[1..][..k - 1];
      LessAtFirstDifference(a[1..], b[1..], k - 1);
    }
  }

  /** A common prefix does not change the order. */
  lemma {:induction false} LessCommonPrefix(p: string, s: string, t: string)
    requires Less(s, t)
    ensures Less(p + s, p + t)
  {
    if |p| == 0 {
      assert p + s == s && p + t == t;
    } else {
      assert (p + s)[0] == p[0] == (p + t)[0];
      assert (p + s)[1..] == p[1..] + s;
      assert (p + t)[1..] == p[1..] + t;
      LessCommonPrefix(p[1..], s, t);
    }
  }

  /** ASCII case mapping of `str.lower`; every other character is left alone. */
  function LowerChar(c: char): char {
    if 'A' <= c <= 'Z' then (c as int - 'A' as int + 'a' as int) as char else c
  }

  function Lower(s: string): string {
    seq(|s|, i requires 0 <= i < |s| => LowerChar(s[i]))
  }

  predicate StartsWith(s: string, prefix: string) {
    |prefix| <= |s| && s[..|prefix|] == prefix
  }

  predicate EndsWith(s: string, suffix: string) {
    |suffix| <= |s| && s[|s| - |suffix|..] == suffix
  }

}

=== FILE: tree.dfy ===
/**
  The directory tree the batch driver walks: leaf classification (`is_leaf_folder`) and
  the top-down traversal order of `os.walk`.
*/
module Tree {

  /** A directory entry: a plain file or a folder with its entries in listing order. */
  datatype Entry = File(name: string) | Folder(name: string, entries: seq<Entry>)

  /** A folder is a leaf when none of its entries is a folder. */
  predicate IsLeaf(entries: seq<Entry>) {
    forall i | 0 <= i < |entries| :: !entries[i].Folder?
  }

  /** `is_leaf_folder`: scan the entries and stop at the first folder. */
  function IsLeafFolder(entries: seq<Entry>): (r: bool)
    ensures r <==> IsLeaf(entries)
  {
    if entries == [] then true
    else if entries[0].Folder? then false
    else IsLeafFolder(entries[1..])
  }

  /** Plain files, whatever their names, never change the classification. */
  lemma PlainFilesDoNotMatter(before: seq<Entry>, after: seq<Entry>, name: string)
    ensures IsLeafFolder(before + [File(name)] + after) == IsLeafFolder(before + after)
  {
    var withFile := before + [File(name)] + after;
    var without := before + after;
    assert forall i | 0 <= i < |before| :: withFile[i] == without[i];
    assert forall i | |before| < i < |withFile| :: withFile[i] == without[i - 1];
    assert withFile[|before|] == File(name);
    if IsLeaf(without) {
      assert IsLeaf(withFile);
    }
    if IsLeaf(withFile) {
      forall i | 0 <= i < |without|
        ensures !without[i].Folder?
      {
        if i < |before| {
          assert without[i] == withFile[i];
        } else {
          assert without[i] == withFile[i + 1];
        }
      }
    }
  }

  /** `os.listdir`: the names of the entries. */
  function Names(entries: seq<Entry>): (r: seq<string>)
    ensures |r| == |entries|
    ensures forall i | 0 <= i < |entries| :: r[i] == entries[i].name
  {
    seq(|entries|, i requires 0 <= i < |entries| => entries[i].name)
  }

  /** A folder visited by the walk, with the path of names that leads to it. */
  datatype Visit = Visit(path: seq<string>, folder: Entry)

  predicate Visitable(v: Visit) {
    v.folder.Folder?
  }

  /** `os.walk(top)` top-down: the folder itself, then the walks of its sub-folders in listing order. */
  function Walk(path: seq<string>, d: Entry): (vs: seq<Visit>)
    requires d.Folder?
    ensures |vs| >= 1 && vs[0] == Visit(path, d)
    ensures forall k | 0 <= k < |vs| :: Visitable(vs[k])
    decreases d, 1
  {
    [Visit(path, d)] + WalkFrom(path, d, 0)
  }

  /** The walks of the sub-folders among `d.entries[i..]`. */
  function WalkFrom(path: seq<string>, d: Entry, i: nat): (vs: seq<Visit>)
    requires d.Folder? && i <= |d.entries|
    ensures forall k | 0 <= k < |vs| :: Visitable(vs[k])
    ensures forall j | i <= j < |d.entries| && d.entries[j].Folder? ::
      Visit(path + [d.entries[j].name], d.entries[j]) in vs
    decreases d, 0, |d.entries| - i
  {
    if i == |d.entries| then []
    else
      var c := d.entries[i];
      (if c.Folder? then Walk(path + [c.name], c) else []) + WalkFrom(path, d, i + 1)
  }

  /** Every sub-folder of a walked folder is visited, under its own name. */
  lemma WalkVisitsSubfolders(path: seq<string>, d: Entry)
    requires d.Folder?
    ensures forall j | 0 <= j < |d.entries| && d.entries[j].Folder? ::
      Visit(path + [d.entries[j].name], d.entries[j]) in Walk(path, d)
  {
    assert WalkFrom(path, d, 0) <= Walk(path, d)[1..];
  }

  /**
    Folder `f` is reached from folder `d` by descending, in turn, into a sub-folder
    named by each entry of `rel`.
  */
  predicate Reaches(d: Entry, rel: seq<string>, f: Entry)
    decreases d
  {
    && d.Folder? && f.Folder?
    && if rel == [] then f == d
       else exists i | 0 <= i < |d.entries| ::
              && d.entries[i].Folder? && d.entries[i].name == rel[0]
              && Reaches(d.entries[i], rel[1..], f)
  }

  /**
    The walk from `d` at `path` visits exactly the folders reachable from `d`, each under
    `path` extended by the names leading to it.
  */
  lemma WalkReaches(path: seq<string>, d: Entry, v: Visit)
    requires d.Folder?
    ensures v in Walk(path, d) <==>
      |path| <= |v.path| && v.path[..|path|] == path && Reaches(d, v.path[|path|..], v.folder)
  {
    if v in Walk(path, d) {
      WalkSound(path, d, v);
    }
    if |path| <= |v.path| && v.path[..|path|] == path && Reaches(d, v.path[|path|..], v.folder) {
      WalkComplete(path, d, v.path[|path|..], v.folder);
      assert path + v.path[|path|..] == v.path;
    }
  }

  lemma {:induction false} WalkSound(path: seq<string>, d: Entry, v: Visit)
    requires d.Folder? && v in Walk(path, d)
    ensures |path| <= |v.path| && v.path[..|path|] == path && Reaches(d, v.path[|path|..], v.folder)
    decreases d, 1
  {
    if v == Visit(path, d) {
      assert v.path[|path|..] == [];
    } else {
      WalkFromSound(path, d, 0, v);
    }
  }

  lemma {:induction false} WalkFromSound(path: seq<string>, d: Entry, i: nat, v: Visit)
    requires d.Folder? && i <= |d.entries| && v in WalkFrom(path, d, i)
    ensures |path| <= |v.path| && v.path[..|path|] == path && Reaches(d, v.path[|path|..], v.folder)
    decreases d, 0, |d.entries| - i
  {
    var c := d.entries[i];
    if c.Folder? && v in Walk(path + [c.name], c) {
      var inner := path + [c.name];
      WalkSound(inner, c, v);
      var rel := v.path[|path|..];
      assert v.path[..|path|] == inner[..|path|] == path;
      assert rel[0] == c.name && rel[1..] == v.path[|inner|..];
      assert Reaches(c, rel[1..], v.folder);
    } else {
      WalkFromSound(path, d, i + 1, v);
    }
  }

  lemma {:induction false} WalkComplete(path: seq<string>, d: Entry, rel: seq<string>, f: Entry)
    requires Reaches(d, rel, f)
    ensures Visit(path + rel, f) in Walk(path, d)
    decreases d
  {
    if rel == [] {
      assert path + rel == path;
    } else {
      var i :| 0 <= i < |d.entries| && d.entries[i].Folder? && d.entries[i].name == rel[0]
                && Reaches(d.entries[i], rel[1..], f);
      var c := d.entries[i];
      WalkComplete(path + [c.name], c, rel[1..], f);
      assert path + [c.name] + rel[1..] == path + rel;
      WalkFromIncludes(path, d, 0, i, Visit(path + rel, f));
    }
  }

  /** The walks of the sub-folders from entry `i` on contain the walk of each of them. */
  lemma {:induction false} WalkFromIncludes(path: seq<string>, d: Entry, i: nat, j: nat, v: Visit)
    requires d.Folder? && i <= j < |d.entries| && d.entries[j].Folder?
    requires v in Walk(path + [d.entries[j].name], d.entries[j])
    ensures v in WalkFrom(path, d, i)
    decreases j - i
  {
    if i < j {
      WalkFromIncludes(path, d, i + 1, j, v);
    }
  }

  /** Sibling entries have distinct names at every depth, as in a file system. */
  predicate DistinctNames(d: Entry)
    decreases d
  {
    d.Folder? ==>
      && (forall i, j | 0 <= i < j < |d.entries| :: d.entries[i].name != d.entries[j].name)
      && forall i | 0 <= i < |d.entries| :: DistinctNames(d.entries[i])
  }

  /** No two visits are of the same path. */
  predicate DistinctPaths(vs: seq<Visit>) {
    forall i, j | 0 <= i < j < |vs| :: vs[i].path != vs[j].path
  }

  lemma DistinctPathsAppend(a: seq<Visit>, b: seq<Visit>)
    requires DistinctPaths(a) && DistinctPaths(b)
    requires forall x, y | x in a && y in b :: x.path != y.path
    ensures DistinctPaths(a + b)
  {
    var ab := a + b;
    forall i, j | 0 <= i < j < |ab|
      ensures ab[i].path != ab[j].path
    {
      if j < |a| {
        assert ab[i] == a[i] && ab[j] == a[j];
      } else if i >= |a| {
        assert ab[i] == b[i - |a|] && ab[j] == b[j - |a|];
      } else {
        assert ab[i] == a[i] && ab[j] == b[j - |a|];
      }
    }
  }

  /** A prefix of visits with distinct paths has distinct paths. */
  lemma DistinctPathsPrefix(prefix: seq<Visit>, vs: seq<Visit>)
    requires prefix <= vs && DistinctPaths(vs)
    ensures DistinctPaths(prefix)
  {
    forall i, j | 0 <= i < j < |prefix|
      ensures prefix[i].path != prefix[j].path
    {
      assert prefix[i] == vs[i] && prefix[j] == vs[j];
    }
  }

  /** Every visit of `WalkFrom(path, d, i)` lies under a sub-folder `j >= i`, named next on its path. */
  lemma {:induction false} WalkFromUnder(path: seq<string>, d: Entry, i: nat, v: Visit)
    requires d.Folder? && i <= |d.entries| && v in WalkFrom(path, d, i)
    ensures |v.path| > |path|
    ensures exists j | i <= j < |d.entries| :: d.entries[j].Folder? && v.path[|path|] == d.entries[j].name
    decreases |d.entries| - i
  {
    var c := d.entries[i];
    if c.Folder? && v in Walk(path + [c.name], c) {
      WalkSound(path + [c.name], c, v);
      assert v.path[|path|] == v.path[..|path| + 1][|path|];
    } else {
      WalkFromUnder(path, d, i + 1, v);
    }
  }

  /** `os.walk` visits each folder once: in a tree with distinct sibling names, no path repeats. */
  lemma {:induction false} WalkOnce(path: seq<string>, d: Entry)
    requires d.Folder? && DistinctNames(d)
    ensures DistinctPaths(Walk(path, d))
    decreases d, 1
  {
    var rest := WalkFrom(path, d, 0);
    WalkFromOnce(path, d, 0);
    forall x, y | x in [Visit(path, d)] && y in rest
      ensures x.path != y.path
    {
      WalkFromUnder(path, d, 0, y);
    }
    DistinctPathsAppend([Visit(path, d)], rest);
  }

  lemma {:induction false} WalkFromOnce(path: seq<string>, d: Entry, i: nat)
    requires d.Folder? && DistinctNames(d) && i <= |d.entries|
    ensures DistinctPaths(WalkFrom(path, d, i))
    decreases d, 0, |d.entries| - i
  {
    if i < |d.entries| {
      var c := d.entries[i];
      var head := if c.Folder? then Walk(path + [c.name], c) else [];
      var rest := WalkFrom(path, d, i + 1);
      WalkFromOnce(path, d, i + 1);
      if c.Folder? {
        WalkOnce(path + [c.name], c);
        forall x, y | x in head && y in rest
          ensures x.path != y.path
        {
          WalkSound(path + [c.name], c, x);
          assert x.path[|path|] == x.path[..|path| + 1][|path|] == c.name;
          WalkFromUnder(path, d, i + 1, y);
        }
      }
      DistinctPathsAppend(head, rest);
    }
  }

  /** A leaf is walked alone: none of its entries is a folder to descend into. */
  lemma WalkOfLeaf(path: seq<string>, d: Entry)
    requires d.Folder? && IsLeaf(d.entries)
    ensures Walk(path, d) == [Visit(path, d)]
  {
    WalkFromFiles(path, d, 0);
  }

  lemma {:induction false} WalkFromFiles(path: seq<string>, d: Entry, i: nat)
    requires d.Folder? && i <= |d.entries| && IsLeaf(d.entries)
    ensures WalkFrom(path, d, i) == []
    decreases |d.entries| - i
  {
    if i < |d.entries| {
      WalkFromFiles(path, d, i + 1);
    }
  }

}

=== FILE: wrappers.dfy ===
/** The optional-value datatype used throughout the model for Python's `None`. */
module Wrappers {

  datatype Option<+T> = None | Some(value: T)

}
